=== FILE: README.md ===
# Doomscrollr frontend: page logic and session storage

Doomscrollr is a React client for a crowdfunding and social-posting
service. Almost everything in it is rendering; what this project models is
the handful of rules that decide data: how stored image paths become URLs,
how the axios client attaches credentials, which `localStorage` keys the
login, logout and post pages read and write, and the small state changes
inside the page handlers (error text, search filters, like counts, comment
drafts, the follow button, the chat send box).

Each handler is a pure function. The network result it awaits is passed in
as a value of `Http.Reply<T>`: `Ok(data)`, or `Err(Response(status, body))`
/ `Err(NoResponse(message))`. The outcome records the new state plus the
effects that matter (the request built, the route navigated to, the alert
text). Browser storage is a `map<string, string>`. Response bodies are a
small JSON datatype with JavaScript's truthiness and `String(v)`
conversion.

Modules follow the source files: `MediaConfig` (src/api/config.js),
`ApiClient` (src/api/axios.js), `LoginPage`, `AccountPage`,
`CreateProjectPage`, `ExplorePage`, `HomePage`, `UserProfilePage`,
`ChatRoom`. `Session` holds the lemmas that connect pages through storage.
Supporting modules are `Wrappers`, `Strings`, `Seqs`, `Json`, `Storage`,
`Http` and `Forms`.

Two facts the model makes explicit:

- The interceptor reads the key `token`. Login writes `accessToken` and
  `refreshToken` and never writes `token`. So logging in changes no
  outgoing request (`Session.LoginDoesNotChangeRequests`), and logging out
  changes none either (`Session.LogoutDoesNotChangeRequests`).
- The feed's like and comment calls set their own header from
  `localStorage.getItem('token')`. With no such entry that header reads
  `Token null` (`HomePage.LikeWithoutTokenSendsTokenNull`).

`axios.js` registers one request interceptor and no response interceptor,
so the client has no token refresh, no retry on 401 and no queue of
waiting requests; the model has none either. The header it sets is
`Token <t>`; a comment in the same file (axios.js:15-16) names
`Bearer <t>` as the alternative a different backend would need.

## Model

| member | source | states |
|---|---|---|
| MediaConfig.ImageUrl | doomscrollr-frontend/src/api/config.js:5-21 | A missing or empty path gives `/default-image.png`. A path starting with `http` is returned as is. A path starting with `/` is appended to `MEDIA_URL`. Any other path goes under `MEDIA_URL + "/media/"`. |
| MediaConfig.ImageUrlEndsWithPath | doomscrollr-frontend/src/api/config.js:9-20 | For every non-empty path, the URL ends with that path. |
| MediaConfig.ImageUrlUnderMediaUrl | doomscrollr-frontend/src/api/config.js:14-20 | A non-empty path that does not start with `http` ends up under the backend's address. |
| MediaConfig.ImageUrlIdempotent | doomscrollr-frontend/src/api/config.js:1-20 | For a non-empty path, applying the helper twice gives the same URL as applying it once, because `MEDIA_URL` starts with `https`. |
| MediaConfig.DefaultImageNotFixedPoint | doomscrollr-frontend/src/api/config.js:6-16 | The default image is not a fixed point: passed back in, it is moved under `MEDIA_URL`. |
| MediaConfig.ImageUrlFixedIffAbsolute | doomscrollr-frontend/src/api/config.js:9-20 | A non-empty path comes back unchanged exactly when it already starts with `http`; every other path is rewritten. |
| Storage.GetItem | doomscrollr-frontend/src/api/axios.js:12 | `getItem` yields the stored string for a present key and `null` (here `None`) exactly when the key is absent. |
| Storage.HasTruthy | doomscrollr-frontend/src/pages/CreateProjectPage.jsx:27-32 | A stored item passes an `if` exactly when `getItem` finds it and it is not the empty string. |
| Storage.SetItem | doomscrollr-frontend/src/pages/LoginPage.jsx:25-26 | `setItem` adds or overwrites one key with the given string and keeps every other key and value. |
| Storage.RemoveItem | doomscrollr-frontend/src/pages/AccountPage.jsx:68-69 | `removeItem` drops one key and keeps every other key and value. |
| Http.Status | doomscrollr-frontend/src/pages/ChatRoom.jsx:43-45 | `err.response?.status` is the response's status, and undefined exactly when no response arrived. |
| Http.Body | doomscrollr-frontend/src/pages/LoginPage.jsx:34 | `err?.response?.data` is the response's body (possibly absent), and undefined when no response arrived. |
| ApiClient.AttachToken | doomscrollr-frontend/src/api/axios.js:10-18 | When storage key `token` holds a non-empty value `t`, the `Authorization` header is set to `Token t`, replacing any existing one. Otherwise the config is returned unchanged. Every other header and config field is kept. |
| ApiClient.Intercept | doomscrollr-frontend/src/api/axios.js:10-21 | A config goes through `AttachToken`. A request-setup error is rejected unchanged. |
| ApiClient.AttachTokenReadsOnlyToken | doomscrollr-frontend/src/api/axios.js:12 | Two stores that agree on `token` produce the same request, so no other key (`accessToken` included) is consulted. |
| ApiClient.AttachTokenIdempotent | doomscrollr-frontend/src/api/axios.js:12-18 | Running the interceptor twice gives the same request as running it once. |
| Json.Truthy | doomscrollr-frontend/src/pages/LoginPage.jsx:38-41 | A value is falsy exactly when it is `null`, `false`, `0` or `""`; arrays and objects, empty or not, are truthy. |
| Json.TruthyOpt | doomscrollr-frontend/src/pages/LoginPage.jsx:38-41 | `undefined` is falsy; a present value is truthy exactly as `Json.Truthy` says. |
| Json.Lookup | doomscrollr-frontend/src/pages/LoginPage.jsx:38 | A found value belongs to an entry with that key; no value is found only when no entry has the key. |
| Json.Get | doomscrollr-frontend/src/pages/LoginPage.jsx:38 | Property access finds nothing on a non-object and looks the key up among an object's entries. |
| Json.ToText | doomscrollr-frontend/src/pages/LoginPage.jsx:40 | `String(v)`: "null", "true"/"false", the decimal numeral of a number, a string itself, "[object Object]"; an empty array gives "" and a one-element array that element's text, with `null` elements as "". |
| Json.ToTextArrayCons | doomscrollr-frontend/src/pages/LoginPage.jsx:40 | A longer array renders as its first element, a comma, then the rest of the array. |
| Json.Entries | doomscrollr-frontend/src/pages/LoginPage.jsx:39 | `Object.entries(data || {})`: nothing for undefined, `null`, booleans and numbers; an object's entries in order; an array or string indexed from "0" with its items or characters. |
| Strings.Join | doomscrollr-frontend/src/pages/LoginPage.jsx:40-41 | No parts give ""; one part gives that part; more parts give the first, the separator, then the rest joined. |
| LoginPage.EntryText | doomscrollr-frontend/src/pages/LoginPage.jsx:40 | One entry renders as exactly `key: ` followed by the value: an array value joined with single spaces, any other value through `String()`. |
| LoginPage.EntriesText | doomscrollr-frontend/src/pages/LoginPage.jsx:39-41 | The joined entry text is empty exactly when there are no entries, begins with the first entry, and is exactly that entry's text when there is one entry. |
| LoginPage.EntriesTextCons | doomscrollr-frontend/src/pages/LoginPage.jsx:39-41 | Entries are rendered in order, separated by single spaces. |
| LoginPage.Detail | doomscrollr-frontend/src/pages/LoginPage.jsx:38 | `data?.detail` is undefined for a missing or non-object body and is the `detail` entry of an object body. |
| LoginPage.ErrorMessage | doomscrollr-frontend/src/pages/LoginPage.jsx:34-42 | A string body is the message verbatim. Otherwise a truthy `detail` is the message. Otherwise the entry text is the message if non-empty. Otherwise the message is the fixed "Login failed" text. |
| LoginPage.ErrorMessageShown | doomscrollr-frontend/src/pages/LoginPage.jsx:34-43 | The error banner stays hidden only when the server's body is the empty string. |
| LoginPage.ErrorMessageWithoutBody | doomscrollr-frontend/src/pages/LoginPage.jsx:39-42 | A failure without a response body yields "Login failed. Please check your credentials." |
| LoginPage.StoredText | doomscrollr-frontend/src/pages/LoginPage.jsx:25-26 | `setItem` stores "undefined" for a missing value, a string as itself, and `String()` of anything else. |
| LoginPage.Succeeded | doomscrollr-frontend/src/pages/LoginPage.jsx:24 | The storage writes are reached exactly when the request succeeded with a body other than `null`, whose destructuring throws. |
| LoginPage.HandleSubmit | doomscrollr-frontend/src/pages/LoginPage.jsx:12-44 | On success, `accessToken` and `refreshToken` hold `String()` of the reply's `access` and `refresh` ("undefined" when missing), other keys are kept, and the error is "". `onLogin` and navigation to /explore happen only on success. On failure, storage is unchanged and the error is the formatted message. A `null` reply counts as a failure. |
| AccountPage.FetchUser | doomscrollr-frontend/src/pages/AccountPage.jsx:30-39 | A reply replaces the user. A failure leaves the state as it was. |
| AccountPage.ChooseFile | doomscrollr-frontend/src/pages/AccountPage.jsx:41-43 | The selected file is the first picked file, or none when nothing was picked. |
| AccountPage.HandleUpload | doomscrollr-frontend/src/pages/AccountPage.jsx:45-65 | With no file selected, nothing happens. Otherwise one PATCH carries the file as `profile_image`. `uploading` is false once it settles. On success the file is cleared and the user is refetched. On failure the file is kept. |
| AccountPage.UploadThenUploadAgainIsNoop | doomscrollr-frontend/src/pages/AccountPage.jsx:46-59 | After a successful upload, a second click sends nothing. |
| AccountPage.FailedUploadCanBeRetried | doomscrollr-frontend/src/pages/AccountPage.jsx:46-64 | After a failed upload, a second click sends the same request again. |
| AccountPage.HandleLogout | doomscrollr-frontend/src/pages/AccountPage.jsx:67-71 | `accessToken` and `refreshToken` are removed. Every other key keeps its value, `token` included. Navigation goes to /login. |
| AccountPage.LogoutIdempotent | doomscrollr-frontend/src/pages/AccountPage.jsx:67-71 | Logging out twice leaves the same storage as logging out once. |
| CreateProjectPage.ChooseImage | doomscrollr-frontend/src/pages/CreateProjectPage.jsx:16-22 | A picked file sets both the image and the preview URL. An empty pick changes nothing. |
| CreateProjectPage.Fields | doomscrollr-frontend/src/pages/CreateProjectPage.jsx:34-46 | A `project` sends `title`, `description` and `target_amount`, in that order. Any other type sends one `content` field holding the description. An `image` field comes last exactly when an image is selected. |
| CreateProjectPage.Endpoint | doomscrollr-frontend/src/pages/CreateProjectPage.jsx:49 | The endpoint is `/projects/` exactly for `project`, and `/social-posts/` for every other type. |
| CreateProjectPage.FailureAlert | doomscrollr-frontend/src/pages/CreateProjectPage.jsx:65-77 | An object, array or `null` body is alerted as JSON. A string, number or boolean body is alerted as its own text. An absent body shows "undefined". A failure without a response shows "Error submitting post: " plus the message. |
| CreateProjectPage.HandleSubmit | doomscrollr-frontend/src/pages/CreateProjectPage.jsx:24-78 | Without a non-empty `accessToken`, nothing is sent and navigation goes to /login. Otherwise the form is posted to its endpoint. On success the form resets to empty `social` and navigation goes to /feed. On failure the form is unchanged and an alert is shown. |
| CreateProjectPage.ResubmitAfterSuccess | doomscrollr-frontend/src/pages/CreateProjectPage.jsx:57-62 | After a successful post, resubmitting sends an empty social post. |
| Seqs.Filter | doomscrollr-frontend/src/pages/ExplorePage.jsx:104-112 | `filter` keeps exactly the elements that pass the test and never lengthens the list; `Seqs.FilterCounts` gives the number of copies. |
| Seqs.FilterCounts | doomscrollr-frontend/src/pages/ExplorePage.jsx:104-112 | Every element that passes the test keeps all its copies, and an element that fails has none. |
| Seqs.FilterIsSubsequence | doomscrollr-frontend/src/pages/ExplorePage.jsx:104-112 | A filtered list is an order-preserving subsequence of the list it came from. |
| Seqs.FilterAppend | doomscrollr-frontend/src/pages/ExplorePage.jsx:104-112 | Filtering a concatenation gives the concatenation of the filtered parts. |
| Seqs.FilterCongruent | doomscrollr-frontend/src/pages/ExplorePage.jsx:104-112 | Two tests that agree on every element select the same sublist. |
| Strings.ToLower | doomscrollr-frontend/src/pages/ExplorePage.jsx:106-111 | `toLowerCase` keeps the length, maps each character on its own and leaves no upper-case ASCII letter. |
| Strings.Includes | doomscrollr-frontend/src/pages/ExplorePage.jsx:106 | `includes` is true exactly when the needle occurs at some index of the string. |
| Strings.Trim | doomscrollr-frontend/src/pages/ChatRoom.jsx:61 | `trim` returns an infix of the input with white space on both sides of it, and the infix neither starts nor ends with white space. |
| Strings.TrimEmptyIffAllSpace | doomscrollr-frontend/src/pages/ChatRoom.jsx:55 | A string trims to "" exactly when every character in it is white space. |
| ExplorePage.FieldMatches | doomscrollr-frontend/src/pages/ExplorePage.jsx:106-111 | A missing field never matches; a present one matches exactly when the lower-cased term occurs at some index of the lower-cased field. |
| ExplorePage.FilteredProjects | doomscrollr-frontend/src/pages/ExplorePage.jsx:104-108 | The result is a subsequence of the projects. A project is in it exactly when its lower-cased title or description contains the lower-cased term, and each matching project appears as many times as in the input. |
| ExplorePage.FilteredUsers | doomscrollr-frontend/src/pages/ExplorePage.jsx:110-112 | The result is a subsequence of the users. A user is in it exactly when the lower-cased username contains the lower-cased term, and each matching user appears as many times as in the input. |
| ExplorePage.EmptyTermKeepsRecordsWithFields | doomscrollr-frontend/src/pages/ExplorePage.jsx:104-112 | With an empty term, exactly the projects that have a title or description, and the users that have a username, are kept. |
| ExplorePage.SearchIgnoresTermCase | doomscrollr-frontend/src/pages/ExplorePage.jsx:106-111 | Lower-casing the search term first changes no result. |
| ExplorePage.SearchDistributes | doomscrollr-frontend/src/pages/ExplorePage.jsx:104-108 | Searching two lists joined end to end gives the two results joined end to end. |
| ExplorePage.FetchData | doomscrollr-frontend/src/pages/ExplorePage.jsx:68-98 | `loading` is false once settled. On success both lists are replaced (a falsy list becomes []) and the error is cleared. On failure both lists are kept and the error is set. Navigation goes to /login exactly on a 401. |
| ExplorePage.Render | doomscrollr-frontend/src/pages/ExplorePage.jsx:114-154 | The skeleton shows exactly while loading. The critical-error view shows exactly when an error is set and both lists are empty. Otherwise the filtered lists show, and the users section only when the term is non-empty. |
| ExplorePage.FailedFirstLoadShowsError | doomscrollr-frontend/src/pages/ExplorePage.jsx:86-120 | A failed first load ends on the critical-error view. |
| ExplorePage.FailedReloadKeepsContent | doomscrollr-frontend/src/pages/ExplorePage.jsx:86-120 | A failed reload after data was loaded keeps showing the old lists. |
| HomePage.Liked | doomscrollr-frontend/src/pages/HomePage.jsx:29 | Posts with the liked id gain exactly one like and keep their other fields. Every other post is unchanged. Length and order are kept. |
| HomePage.HandleLike | doomscrollr-frontend/src/pages/HomePage.jsx:24-33 | A successful like applies `Liked`. A failed like leaves the posts unchanged. |
| HomePage.LikeRaisesTotalByMatches | doomscrollr-frontend/src/pages/HomePage.jsx:29 | The total like count grows by exactly the number of posts carrying the id. |
| HomePage.LikeUnknownIdIsIdentity | doomscrollr-frontend/src/pages/HomePage.jsx:29 | Liking an id that no post carries changes nothing. |
| HomePage.StoredToken | doomscrollr-frontend/src/pages/HomePage.jsx:27 | The header text is the `token` entry, or "null" when it is missing. |
| HomePage.LikeRequest | doomscrollr-frontend/src/pages/HomePage.jsx:26-28 | The like request carries only the header `Token <stored token>`. |
| HomePage.LikeWithoutTokenSendsTokenNull | doomscrollr-frontend/src/pages/HomePage.jsx:26-28 | With no `token` entry, the request still goes out, with `Authorization: Token null`. |
| HomePage.DraftText | doomscrollr-frontend/src/pages/HomePage.jsx:108 | A post's comment box shows its draft, or "" when there is none. |
| HomePage.EditDraft | doomscrollr-frontend/src/pages/HomePage.jsx:109 | Typing sets that post's draft and leaves every other draft unchanged. |
| HomePage.HandleComment | doomscrollr-frontend/src/pages/HomePage.jsx:35-50 | An empty or missing draft sends nothing and changes nothing. After a successful comment, that post's draft becomes "", every other draft is unchanged, and the posts are replaced if the reload succeeds. A failed comment changes nothing. |
| HomePage.CommentTwiceSendsOnce | doomscrollr-frontend/src/pages/HomePage.jsx:36-43 | After a successful comment, pressing Post again sends nothing. |
| UserProfilePage.FollowEndpoint | doomscrollr-frontend/src/pages/UserProfilePage.jsx:186 | The follow request goes below the user's own endpoint: `unfollow/` when following, `follow/` when not. |
| UserProfilePage.StartToggle | doomscrollr-frontend/src/pages/UserProfilePage.jsx:183-189 | A click while `followLoading` is ignored. Otherwise it targets `/users/{id}/unfollow/` when following and `/users/{id}/follow/` when not, flips `isFollowing` at once and sets `followLoading`. |
| UserProfilePage.FollowFailedMessage | doomscrollr-frontend/src/pages/UserProfilePage.jsx:199 | The alert reads "Failed to unfollow user. Please try again." when the click was an unfollow and "Failed to follow user. Please try again." otherwise. |
| UserProfilePage.SettleToggle | doomscrollr-frontend/src/pages/UserProfilePage.jsx:191-202 | Success keeps the optimistic value. Failure flips it back and alerts with the action the click saw. `followLoading` ends false either way. |
| UserProfilePage.HandleFollowToggle | doomscrollr-frontend/src/pages/UserProfilePage.jsx:183-203 | A settled toggle leaves `isFollowing` negated on success and unchanged on failure, with `followLoading` false. A click during loading changes nothing. |
| UserProfilePage.ToggleTwiceRestores | doomscrollr-frontend/src/pages/UserProfilePage.jsx:186-194 | Two successful clicks return to the starting state. The second click targets the opposite endpoint. |
| UserProfilePage.FetchUser | doomscrollr-frontend/src/pages/UserProfilePage.jsx:115-129 | A reply sets the user and returns it. A failure clears the user, records the error and returns `null`. Lists are not touched. |
| UserProfilePage.SettleList | doomscrollr-frontend/src/pages/UserProfilePage.jsx:131-155 | A reply replaces the list and clears its error. A failure empties the list and records the error. |
| UserProfilePage.ListErrorInFlight | doomscrollr-frontend/src/pages/UserProfilePage.jsx:132-145 | A first load clears the list's error while in flight. A retry keeps the old error showing. |
| UserProfilePage.FetchAllData | doomscrollr-frontend/src/pages/UserProfilePage.jsx:115-171 | The user is requested first; the state then holds the replied user, or `null` with the error recorded when the request failed. Posts and projects are requested only when a truthy user came back, and then each settles as in `SettleList`. Otherwise both lists and their errors are left as they were. `loading` ends false. |
| UserProfilePage.FailedListIsEmptyWithError | doomscrollr-frontend/src/pages/UserProfilePage.jsx:137-139 | A failed posts request leaves the posts empty with their error set. |
| UserProfilePage.DataListFallback | doomscrollr-frontend/src/pages/UserProfilePage.jsx:57-85 | On error the panel says "Failed to load {type}. Please try again." and has a retry button. Otherwise it says "This user hasn't created any {type} yet." and has no button. |
| UserProfilePage.TabContent | doomscrollr-frontend/src/pages/UserProfilePage.jsx:313-320 | A tab shows the fallback exactly when its list failed or is empty. |
| UserProfilePage.SettledTabMatchesReply | doomscrollr-frontend/src/pages/UserProfilePage.jsx:313-320 | A tab built from its settled request offers the retry button with the "Failed to load" text exactly when the request failed, and lists items exactly when a non-empty list came back. |
| UserProfilePage.Render | doomscrollr-frontend/src/pages/UserProfilePage.jsx:214-245 | The skeleton shows exactly while loading. The unavailable panel shows exactly when the user failed or is falsy, titled "User Not Found" only for a 404. In every other case the profile itself shows. |
| UserProfilePage.FailedUserShowsUnavailable | doomscrollr-frontend/src/pages/UserProfilePage.jsx:123-127 | A failed user request always ends on the unavailable panel. |
| ChatRoom.FetchMessages | doomscrollr-frontend/src/pages/ChatRoom.jsx:32-51 | Success replaces the messages wholesale and clears the error. A 404 sets "Conversation not found.". A 401 sets "Failed to load messages." and navigates to /login. Any other failure sets "Failed to load messages.". `loading` ends false. |
| ChatRoom.StartSend | doomscrollr-frontend/src/pages/ChatRoom.jsx:53-61 | Nothing is sent when the text is all white space or a send is in flight. Otherwise the payload is the trimmed text and `sending` goes up. |
| ChatRoom.TextField | doomscrollr-frontend/src/pages/ChatRoom.jsx:77 | `err.response?.data?.text`: nothing without a response body, otherwise the body's `text` property. |
| ChatRoom.FirstTextError | doomscrollr-frontend/src/pages/ChatRoom.jsx:77 | `text?.[0]` of the error body is the first item of an array, the first character of a string, the property "0" of an object, and undefined for a missing field, `null`, a number, a boolean, an empty array or an empty string. |
| ChatRoom.SendFailedMessage | doomscrollr-frontend/src/pages/ChatRoom.jsx:77 | The alert reads "Failed to send message: " followed by `String()` of the first `text` error when that is truthy, and by "Unknown error" otherwise. |
| ChatRoom.SettleSend | doomscrollr-frontend/src/pages/ChatRoom.jsx:69-80 | Success appends the server's message after the current ones and clears the input. Failure keeps messages and input. `sending` ends false either way. |
| ChatRoom.SendMessage | doomscrollr-frontend/src/pages/ChatRoom.jsx:53-81 | A click the guard rejects changes nothing. Otherwise the payload is the trimmed text. Success appends the reply to the messages and empties the box. Failure returns to the state before the click and raises exactly the `SendFailedMessage` alert. |
| ChatRoom.SendTwiceSendsOnce | doomscrollr-frontend/src/pages/ChatRoom.jsx:55-72 | After a successful send, sending again right away does nothing. |
| ChatRoom.CurrentUsername | doomscrollr-frontend/src/pages/ChatRoom.jsx:84-85 | The reader is the non-empty `username` entry as a string, else whatever `?.username` of the parsed `user` entry gives (possibly `null` or a non-string), else undefined when there is no `user` entry. |
| ChatRoom.IsMine | doomscrollr-frontend/src/pages/ChatRoom.jsx:132 | Strict equality: an absent sender matches only an undefined reader, `null` matches only `null`, other primitives match by value, and an array or object never matches. |
| ChatRoom.AnonymousMessagesLookMine | doomscrollr-frontend/src/pages/ChatRoom.jsx:84-132 | When the reader is unknown, a message with no `sender_username` field is drawn as the reader's. |
| ChatRoom.NullSenderLooksForeign | doomscrollr-frontend/src/pages/ChatRoom.jsx:132 | A `null` sender is not `undefined`, so for an unknown reader that message is drawn as someone else's. |
| ChatRoom.StoredNameDecidesOwnership | doomscrollr-frontend/src/pages/ChatRoom.jsx:84-132 | With a non-empty `username` entry, a message is the reader's exactly when its sender is that name as a string. |
| ChatRoom.Render | doomscrollr-frontend/src/pages/ChatRoom.jsx:87-132 | The loading text shows exactly while loading. The error panel shows exactly when an error is set and there are no messages. In every other case the conversation shows the current messages. |
| ChatRoom.MissingConversationShowsNotFound | doomscrollr-frontend/src/pages/ChatRoom.jsx:45-46 | A 404 on the first load ends on the panel "Conversation not found.". |
| Session.LoginDoesNotChangeRequests | doomscrollr-frontend/src/pages/LoginPage.jsx:24-26 | Whatever the login reply, the interceptor builds the same request afterwards as before: login never writes `token`. |
| Session.FreshLoginSendsNoAuthorization | doomscrollr-frontend/src/api/axios.js:12-18 | Starting from empty storage, a successful login leaves the interceptor returning every request config unchanged: it adds no `Authorization` header. (The feed's like and comment calls set their own header; see `HomePage.LikeWithoutTokenSendsTokenNull`.) |
| Session.LogoutUndoesLogin | doomscrollr-frontend/src/pages/AccountPage.jsx:67-71 | Logout after a successful login leaves the same storage as logout alone. |
| Session.LogoutDoesNotChangeRequests | doomscrollr-frontend/src/pages/AccountPage.jsx:67-71 | Logout does not change what the interceptor sends, because `token` survives it. |
| Session.PostingAfterLogoutIsRefused | doomscrollr-frontend/src/pages/CreateProjectPage.jsx:27-32 | After logout, the post form sends nothing and goes to /login. |
| Session.PostingAfterLoginIsSent | doomscrollr-frontend/src/pages/CreateProjectPage.jsx:27-32 | After a login whose access token is non-empty text, the post form sends its request. |

## Left out

- Networking, `async`/`await`, `Promise.all` and the chat room's 3-second polling are not modelled. Each request's settlement is an input value. Handlers are modelled as running without interleaving, except the chat send and follow toggle, whose settle halves take the state current at settlement.
- Token refresh, 401 retry and request queueing are not modelled: the client code has no such logic.
- JSX rendering, CSS, skeletons, routing tables, `App.jsx`, `Navbar.jsx`, `Layout.jsx`, `PostPage.jsx` and `vite.config.js` are not modelled. Render functions only model the choice of view.
- `ChatList.jsx`, `Profile.jsx`, `Register.jsx` and `ProjectDetails.jsx` are not part of this model. Their rules are one-line checks. `ProjectDetails.jsx` parses the pledge amount with `parseFloat` and computes the funding percentage in floating point; `ChatList.jsx` reads the user id with `parseInt`; `Profile.jsx` and `Register.jsx` do no arithmetic.
- Strings.ToLower: only ASCII letters are lower-cased; JavaScript's full Unicode case mapping is left out.
- Strings.IsSpace: uses the ECMAScript white-space set as fixed by current Unicode. Strings are sequences of code points, not UTF-16 units.
- Json.Value: numbers are integers. Floating-point values and their rendering are left out.
- Json.Value: an object is a list of entries that may repeat a key, and `Lookup` returns the first. `JSON.parse` keeps the last of repeated keys but never produces an object with repeats; on objects without repeated keys `Lookup` finds the one entry (`Json.LookupUnique`).
- Json.Entries: keeps an object's entries in stored order. JavaScript lists integer-like keys first, in ascending order; that reordering is not modelled.
- CreateProjectPage.FailureAlert: `JSON.stringify` is not rendered; the alert holds the value that would be stringified. Non-object bodies are shown through `String()`.
- ChatRoom.CurrentUsername: `JSON.parse` is a parameter. A parse that throws is not modelled.
- Fields the handlers never read (post images, owners, comment lists, transactions) are left out of the records. A field of the wrong JavaScript type (for example a numeric `title`) makes the source throw; the model types those fields as strings. List replies are typed as sequences, so two crashes of the source cannot occur in the model: a truthy non-array projects reply makes `projects.filter` throw (ExplorePage.jsx:104), and a `null` list reply stored without a `|| []` guard (UserProfilePage.jsx:135,148; ChatRoom.jsx:37) makes the page throw on `.length` (UserProfilePage.jsx:261,315; ChatRoom.jsx:95,127).
- The axios instance's `baseURL` and `withCredentials` options are not modelled; request URLs are kept relative to the base.
- `console` logging, `alert` display, `e.preventDefault` and `URL.createObjectURL` are left out. The object URL is a parameter of `ChooseImage`.
- AccountPage.HandleUpload: the moment between click and settlement, when `uploading` is true, is not a separate state. The upload button's `disabled` attribute is not modelled. The handler itself does not check `uploading`.
- ExplorePage.FetchData: the request start and settlement are one step. The start sets `loading` and clears the error. A failure overwrites both; a success leaves the error cleared and `finally` resets `loading`.

=== FILE: account_page.dfy ===
/**
 * src/pages/AccountPage.jsx: loading the signed-in user, uploading a new
 * profile image, and logging out.
 */
module AccountPage {
  import opened Wrappers
  import Json
  import opened Storage
  import opened Http
  import opened Forms

  const PATCH: string := "patch"
  const UPLOAD_ENDPOINT: string := "/profile/update/"
  const UPLOAD_FIELD: string := "profile_image"
  const LOGIN_ROUTE: string := "/login"

  datatype AccountState = AccountState(
    user: Json.Value,
    selectedFile: Option<File>,
    uploading: bool)

  /** `fetchUser`: a reply replaces the user, a failure is only logged. */
  function FetchUser(s: AccountState, reply: Reply<Json.Value>): (r: AccountState)
    ensures reply.Ok? ==> r == s.(user := reply.data)
    ensures reply.Err? ==> r == s
  {
    if reply.Ok? then s.(user := reply.data) else s
  }

  /** `handleImageChange`: the first picked file, or nothing when the picker was emptied. */
  function ChooseFile(s: AccountState, files: seq<File>): (r: AccountState)
    ensures r.selectedFile.Some? <==> |files| > 0
    ensures |files| > 0 ==> r.selectedFile.value == files[0]
    ensures r.user == s.user && r.uploading == s.uploading
  {
    s.(selectedFile := if |files| > 0 then Some(files[0]) else None)
  }

  /** The request the upload sends: its HTTP verb, endpoint and multipart body. */
  datatype Upload = Upload(verb: string, endpoint: string, form: FormData)

  datatype UploadOutcome = UploadOutcome(
    state: AccountState,
    request: Option<Upload>,
    refetchUser: bool)

  /** `handleUpload`, from the click to the moment the request has settled. */
  function HandleUpload(s: AccountState, reply: Reply<Json.Value>): (r: UploadOutcome)
    ensures s.selectedFile.None? ==> r == UploadOutcome(s, None, false)
    ensures s.selectedFile.Some? ==>
              && r.request == Some(Upload(PATCH, UPLOAD_ENDPOINT, [(UPLOAD_FIELD, Blob(s.selectedFile.value))]))
              && !r.state.uploading
              && r.state.user == s.user
    ensures s.selectedFile.Some? && reply.Ok? ==> r.state.selectedFile.None? && r.refetchUser
    ensures s.selectedFile.Some? && reply.Err? ==> r.state.selectedFile == s.selectedFile && !r.refetchUser
  {
    match s.selectedFile
    case None => UploadOutcome(s, None, false)
    case Some(file) =>
      var request := Upload(PATCH, UPLOAD_ENDPOINT, [(UPLOAD_FIELD, Blob(file))]);
      if reply.Ok? then
        UploadOutcome(s.(selectedFile := None, uploading := false), Some(request), true)
      else
        UploadOutcome(s.(uploading := false), Some(request), false)
  }

  /** A successful upload uses up the picked file: clicking again sends nothing. */
  lemma UploadThenUploadAgainIsNoop(s: AccountState, first: Reply<Json.Value>, second: Reply<Json.Value>)
    requires s.selectedFile.Some? && first.Ok?
    ensures HandleUpload(HandleUpload(s, first).state, second).request.None?
  {
  }

  /** A failed upload keeps the file, so a retry sends the same request again. */
  lemma FailedUploadCanBeRetried(s: AccountState, first: Reply<Json.Value>, second: Reply<Json.Value>)
    requires s.selectedFile.Some? && first.Err?
    ensures HandleUpload(HandleUpload(s, first).state, second).request == HandleUpload(s, first).request
  {
  }

  datatype LogoutOutcome = LogoutOutcome(store: Store, navigateTo: string)

  /** `handleLogout`: both login tokens go; nothing else in storage is touched. */
  function HandleLogout(st: Store): (r: LogoutOutcome)
    ensures ACCESS_TOKEN !in r.store && REFRESH_TOKEN !in r.store
    ensures r.store.Keys == st.Keys - {ACCESS_TOKEN, REFRESH_TOKEN}
    ensures forall k :: k in r.store ==> r.store[k] == st[k]
    ensures TOKEN in r.store <==> TOKEN in st
    ensures r.navigateTo == LOGIN_ROUTE
  {
    KeysDistinct();
    LogoutOutcome(RemoveItem(RemoveItem(st, ACCESS_TOKEN), REFRESH_TOKEN), LOGIN_ROUTE)
  }

  /** Logging out twice leaves the same storage as logging out once. */
  lemma LogoutIdempotent(st: Store)
    ensures HandleLogout(HandleLogout(st).store).store == HandleLogout(st).store
  {
  }
}

=== FILE: api_client.dfy ===
/**
 * The axios instance in src/api/axios.js: a fixed base URL and one request
 * interceptor that copies the `token` storage entry into the
 * `Authorization` header.
 */
module ApiClient {
  import opened Wrappers
  import Json
  import opened Storage

  const AUTHORIZATION: string := "Authorization"
  /** The scheme word the interceptor puts before the token. */
  const SCHEME: string := "Token "

  /** The parts of an axios request config the interceptor can see. */
  datatype RequestConfig = RequestConfig(
    verb: string,
    url: string,
    headers: map<string, string>,
    data: Option<Json.Value>)

  /** What reaches the interceptor: a config to send, or an error raised while setting the request up. */
  datatype Dispatch = Send(config: RequestConfig) | Reject(reason: string)

  /** The fulfilment handler of the request interceptor. */
  function AttachToken(st: Store, config: RequestConfig): (r: RequestConfig)
    ensures HasTruthy(st, TOKEN) ==>
              AUTHORIZATION in r.headers && r.headers[AUTHORIZATION] == SCHEME + st[TOKEN]
    ensures !HasTruthy(st, TOKEN) ==> r == config
    ensures r.verb == config.verb && r.url == config.url && r.data == config.data
    ensures forall h :: h != AUTHORIZATION ==>
              (h in r.headers <==> h in config.headers)
              && (h in config.headers ==> r.headers[h] == config.headers[h])
  {
    match GetItem(st, TOKEN)
    case Some(token) =>
      if token != "" then config.(headers := config.headers[AUTHORIZATION := SCHEME + token])
      else config
    case None => config
  }

  /** Both interceptor handlers: configs get the token, setup errors are passed on as rejections. */
  function Intercept(st: Store, d: Dispatch): (r: Dispatch)
    ensures d.Reject? ==> r == d
    ensures d.Send? ==> r.Send? && r.config == AttachToken(st, d.config)
  {
    match d
    case Send(config) => Send(AttachToken(st, config))
    case Reject(reason) => Reject(reason)
  }

  /** Only the `token` entry matters: stores that agree on it produce the same request. */
  lemma AttachTokenReadsOnlyToken(st1: Store, st2: Store, config: RequestConfig)
    requires GetItem(st1, TOKEN) == GetItem(st2, TOKEN)
    ensures AttachToken(st1, config) == AttachToken(st2, config)
  {
  }

  /** Running the interceptor twice gives the same request as running it once. */
  lemma AttachTokenIdempotent(st: Store, config: RequestConfig)
    ensures AttachToken(st, AttachToken(st, config)) == AttachToken(st, config)
  {
  }
}

=== FILE: chat_room.dfy ===
/**
 * src/pages/ChatRoom.jsx: one conversation, reloaded from the server and
 * extended by the messages the reader sends.
 */
module ChatRoom {
  import opened Wrappers
  import opened Strings
  import Json
  import opened Storage
  import opened Http

  /**
   * A message as parsed from the server. `senderUsername` is `None` when the
   * field is absent (`undefined`); JSON `null` and other values are kept.
   */
  datatype Message = Message(id: int, senderUsername: Option<Json.Value>, text: string)

  datatype ChatState = ChatState(
    messages: seq<Message>,
    text: string,
    loading: bool,
    sending: bool,
    error: Option<string>)

  const INITIAL: ChatState := ChatState([], "", true, false, None)

  const LOAD_FAILED: string := "Failed to load messages."
  const NOT_FOUND: string := "Conversation not found."
  const LOGIN_ROUTE: string := "/login"

  /** `fetchMessages` once settled, with the route it navigates to, if any. */
  function FetchMessages(s: ChatState, reply: Reply<seq<Message>>): (r: (ChatState, Option<string>))
    ensures !r.0.loading && r.0.text == s.text && r.0.sending == s.sending
    ensures reply.Ok? ==> r.0.messages == reply.data && r.0.error.None? && r.1.None?
    ensures reply.Err? ==> r.0.messages == s.messages
    ensures reply.Err? && Status(reply.failure) == Some(404) ==> r.0.error == Some(NOT_FOUND) && r.1.None?
    ensures reply.Err? && Status(reply.failure) == Some(401) ==> r.0.error == Some(LOAD_FAILED) && r.1 == Some(LOGIN_ROUTE)
    ensures reply.Err? && Status(reply.failure) != Some(401) && Status(reply.failure) != Some(404) ==>
              r.0.error == Some(LOAD_FAILED) && r.1.None?
  {
    match reply
    case Ok(messages) => (s.(messages := messages, error := None, loading := false), None)
    case Err(f) =>
      if Status(f) == Some(401) then (s.(error := Some(LOAD_FAILED), loading := false), Some(LOGIN_ROUTE))
      else if Status(f) == Some(404) then (s.(error := Some(NOT_FOUND), loading := false), None)
      else (s.(error := Some(LOAD_FAILED), loading := false), None)
  }

  datatype SendStart = Ignored | Started(pending: ChatState, payloadText: string)

  /** The synchronous half of `sendMessage`: the guard, then `sending` goes up. */
  function StartSend(s: ChatState): (t: SendStart)
    ensures t.Ignored? <==> AllSpace(s.text) || s.sending
    ensures t.Started? ==> t.pending == s.(sending := true)
    ensures t.Started? ==> t.payloadText == Trim(s.text) && t.payloadText != ""
  {
    TrimEmptyIffAllSpace(s.text);
    if Trim(s.text) == "" || s.sending then Ignored
    else Started(s.(sending := true), Trim(s.text))
  }

  /** `err.response?.data?.text`. */
  function TextField(f: Failure): (r: Option<Json.Value>)
    ensures Body(f).None? ==> r.None?
    ensures Body(f).Some? ==> r == Json.Get(Body(f).value, "text")
  {
    var body := Body(f);
    if body.Some? then Json.Get(body.value, "text") else None
  }

  /**
   * `err.response?.data?.text?.[0]`: the first item of an array, the first
   * character of a string, the property "0" of an object; `undefined` for
   * anything else, `null` included.
   */
  function FirstTextError(f: Failure): (r: Option<Json.Value>)
    ensures TextField(f).None? ==> r.None?
    ensures TextField(f).Some? && TextField(f).value.Array? ==>
              (r.Some? <==> |TextField(f).value.items| > 0)
              && (r.Some? ==> r.value == TextField(f).value.items[0])
    ensures TextField(f).Some? && TextField(f).value.Str? ==>
              (r.Some? <==> |TextField(f).value.s| > 0)
              && (r.Some? ==> r.value == Json.Str([TextField(f).value.s[0]]))
    ensures TextField(f).Some? && TextField(f).value.Object? ==>
              r == Json.Lookup(TextField(f).value.entries, "0")
    ensures TextField(f).Some? && !(TextField(f).value.Array? || TextField(f).value.Str? || TextField(f).value.Object?) ==>
              r.None?
  {
    var field := TextField(f);
    if field.None? then None
    else if field.value.Array? then
      (if |field.value.items| > 0 then Some(field.value.items[0]) else None)
    else if field.value.Str? then
      (if |field.value.s| > 0 then Some(Json.Str([field.value.s[0]])) else None)
    else if field.value.Object? then Json.Lookup(field.value.entries, "0")
    else None
  }

  function SendFailedMessage(f: Failure): (m: string)
    ensures StartsWith(m, "Failed to send message: ")
    ensures !Json.TruthyOpt(FirstTextError(f)) ==> m == "Failed to send message: Unknown error"
    ensures Json.TruthyOpt(FirstTextError(f)) ==> m == "Failed to send message: " + Json.ToText(FirstTextError(f).value)
  {
    var detail := FirstTextError(f);
    var shown := if Json.TruthyOpt(detail) then Json.ToText(detail.value) else "Unknown error";
    StartsWithAppend("Failed to send message: ", shown, "Failed to send message: ");
    "Failed to send message: " + shown
  }

  /**
   * The half of `sendMessage` that runs once the request settles, on the
   * state at that moment (a poll may have replaced the list meanwhile).
   */
  function SettleSend(current: ChatState, reply: Reply<Message>): (r: (ChatState, Option<string>))
    ensures !r.0.sending && r.0.loading == current.loading && r.0.error == current.error
    ensures reply.Ok? ==>
              |r.0.messages| == |current.messages| + 1
              && r.0.messages[..|current.messages|] == current.messages
              && r.0.messages[|current.messages|] == reply.data
              && r.0.text == "" && r.1.None?
    ensures reply.Err? ==>
              r.0.messages == current.messages && r.0.text == current.text
              && r.1 == Some(SendFailedMessage(reply.failure))
  {
    match reply
    case Ok(m) =>
      var messages := current.messages + [m];
      assert messages[..|current.messages|] == current.messages;
      (current.(messages := messages, text := "", sending := false), None)
    case Err(f) => (current.(sending := false), Some(SendFailedMessage(f)))
  }

  datatype SendOutcome = SendOutcome(state: ChatState, payloadText: Option<string>, alert: Option<string>)

  /** One send, with nothing else changing the state before the request settles. */
  function SendMessage(s: ChatState, reply: Reply<Message>): (r: SendOutcome)
    ensures StartSend(s).Ignored? ==> r == SendOutcome(s, None, None)
    ensures StartSend(s).Started? ==>
              r.payloadText == Some(Trim(s.text)) && !r.state.sending
    ensures StartSend(s).Started? && reply.Ok? ==>
              r.state.messages == s.messages + [reply.data] && r.state.text == "" && r.alert.None?
    ensures StartSend(s).Started? && reply.Err? ==>
              r.state == s && r.alert == Some(SendFailedMessage(reply.failure))
  {
    match StartSend(s)
    case Ignored => SendOutcome(s, None, None)
    case Started(pending, payload) =>
      var settled := SettleSend(pending, reply);
      assert reply.Ok? ==> settled.0.messages == s.messages + [reply.data];
      SendOutcome(settled.0, Some(payload), settled.1)
  }

  /** A successful send empties the box, so sending again right away does nothing. */
  lemma SendTwiceSendsOnce(s: ChatState, r1: Reply<Message>, r2: Reply<Message>)
    requires r1.Ok?
    ensures SendMessage(SendMessage(s, r1).state, r2).payloadText.None?
  {
    var first := SendMessage(s, r1).state;
    assert first.text == "" || first == s;
    assert first == s ==> first.text == s.text;
  }

  /**
   * The reader's name: the `username` entry when it is non-empty, otherwise
   * the `username` property of the parsed `user` entry. `parseUserName`
   * stands for `JSON.parse(...)?.username`, with `None` for `undefined`; a
   * missing `user` entry parses as `null`, whose `?.username` is `undefined`.
   */
  function CurrentUsername(st: Store, parseUserName: string -> Option<Json.Value>): (r: Option<Json.Value>)
    ensures HasTruthy(st, USERNAME) ==> r == Some(Json.Str(st[USERNAME]))
    ensures !HasTruthy(st, USERNAME) && USER in st ==> r == parseUserName(st[USER])
    ensures !HasTruthy(st, USERNAME) && USER !in st ==> r.None?
  {
    if HasTruthy(st, USERNAME) then Some(Json.Str(st[USERNAME]))
    else if USER in st then parseUserName(st[USER])
    else None
  }

  /**
   * `msg.sender_username === currentUsername`. `undefined` equals only
   * `undefined`; primitives compare by value; an array or object from one
   * parse is never the same reference as one from another.
   */
  function IsMine(m: Message, current: Option<Json.Value>): (b: bool)
    ensures b ==> (m.senderUsername.None? <==> current.None?)
    ensures m.senderUsername.None? && current.None? ==> b
    ensures m.senderUsername.Some? && current.Some? ==>
              (b <==> m.senderUsername.value == current.value
                      && !m.senderUsername.value.Array? && !m.senderUsername.value.Object?)
  {
    match (m.senderUsername, current)
    case (None, None) => true
    case (Some(a), Some(c)) => a == c && !a.Array? && !a.Object?
    case _ => false
  }

  /** When the reader's name is unknown, every message with no `sender_username` field is drawn as the reader's own. */
  lemma AnonymousMessagesLookMine(m: Message)
    requires m.senderUsername.None?
    ensures IsMine(m, None)
  {
  }

  /** A `null` sender is not `undefined`: for a reader whose name is unknown it is drawn as someone else's. */
  lemma NullSenderLooksForeign(m: Message)
    requires m.senderUsername == Some(Json.Null)
    ensures !IsMine(m, None)
  {
  }

  /** With a non-empty `username` entry, exactly the messages sent under that name are the reader's. */
  lemma StoredNameDecidesOwnership(st: Store, parseUserName: string -> Option<Json.Value>, m: Message)
    requires HasTruthy(st, USERNAME)
    ensures IsMine(m, CurrentUsername(st, parseUserName)) <==> m.senderUsername == Some(Json.Str(st[USERNAME]))
  {
  }

  datatype ChatView = Loading | ErrorPanel(message: string) | Conversation(messages: seq<Message>)

  function Render(s: ChatState): (v: ChatView)
    ensures v == Loading <==> s.loading
    ensures v.ErrorPanel? <==> !s.loading && s.error.Some? && s.error.value != "" && |s.messages| == 0
    ensures v.Conversation? ==> v.messages == s.messages
  {
    if s.loading then Loading
    else if s.error.Some? && s.error.value != "" && |s.messages| == 0 then ErrorPanel(s.error.value)
    else Conversation(s.messages)
  }

  /** A conversation the server does not know ends on the error panel with its own text. */
  lemma MissingConversationShowsNotFound(body: Option<Json.Value>)
    ensures Render(FetchMessages(INITIAL, Err(Response(404, body))).0) == ErrorPanel(NOT_FOUND)
  {
  }
}

=== FILE: create_project_page.dfy ===
/**
 * `handleSubmit` of src/pages/CreateProjectPage.jsx: one form that posts
 * either a fundraising project or a social post.
 */
module CreateProjectPage {
  import opened Wrappers
  import Json
  import opened Storage
  import opened Http
  import opened Forms

  const PROJECT: string := "project"
  const SOCIAL: string := "social"
  const PROJECTS_ENDPOINT: string := "/projects/"
  const SOCIAL_POSTS_ENDPOINT: string := "/social-posts/"
  const NOT_LOGGED_IN: string := "You must be logged in to post."
  const SUBMIT_ERROR_PREFIX: string := "Error submitting post: "

  datatype PostForm = PostForm(
    postType: string,
    title: string,
    description: string,
    targetAmount: string,
    image: Option<File>,
    preview: Option<string>)

  /** The state the page starts in and returns to after a successful post. */
  const EMPTY_FORM: PostForm := PostForm(SOCIAL, "", "", "", None, None)

  /** `handleImageChange`: a picked file replaces image and preview; an empty pick changes nothing. */
  function ChooseImage(form: PostForm, files: seq<File>, objectUrl: string): (r: PostForm)
    ensures |files| == 0 ==> r == form
    ensures |files| > 0 ==> r == form.(image := Some(files[0]), preview := Some(objectUrl))
  {
    if |files| > 0 then form.(image := Some(files[0]), preview := Some(objectUrl)) else form
  }

  /** The multipart body. */
  function Fields(form: PostForm): (fd: FormData)
    ensures |fd| == (if form.postType == PROJECT then 3 else 1) + (if form.image.Some? then 1 else 0)
    ensures form.postType == PROJECT ==>
              fd[..3] == [("title", Text(form.title)),
                          ("description", Text(form.description)),
                          ("target_amount", Text(form.targetAmount))]
    ensures form.postType != PROJECT ==> fd[0] == ("content", Text(form.description))
    ensures form.image.Some? ==> fd[|fd| - 1] == ("image", Blob(form.image.value))
    ensures form.image.None? ==> forall i :: 0 <= i < |fd| ==> fd[i].0 != "image"
  {
    var text: FormData :=
      if form.postType == PROJECT then
        [("title", Text(form.title)),
         ("description", Text(form.description)),
         ("target_amount", Text(form.targetAmount))]
      else [("content", Text(form.description))];
    if form.image.Some? then text + [("image", Blob(form.image.value))] else text
  }

  function Endpoint(postType: string): (url: string)
    ensures url == PROJECTS_ENDPOINT <==> postType == PROJECT
    ensures url == SOCIAL_POSTS_ENDPOINT <==> postType != PROJECT
  {
    if postType == PROJECT then PROJECTS_ENDPOINT else SOCIAL_POSTS_ENDPOINT
  }

  /** An `alert`: plain text, or the `JSON.stringify` of an object body (not rendered here). */
  datatype Alert = Message(text: string) | JsonDump(value: Json.Value)

  /** The alert for a failed post: object-typed bodies are dumped, others shown as text. */
  function FailureAlert(f: Failure): (a: Alert)
    ensures f.NoResponse? ==> a == Message(SUBMIT_ERROR_PREFIX + f.message)
    ensures f.Response? && f.body.None? ==> a == Message("undefined")
    ensures f.Response? && f.body.Some? && (f.body.value.Object? || f.body.value.Array? || f.body.value.Null?) ==>
              a == JsonDump(f.body.value)
    ensures f.Response? && f.body.Some? && !(f.body.value.Object? || f.body.value.Array? || f.body.value.Null?) ==>
              a == Message(Json.ToText(f.body.value))
  {
    match f
    case NoResponse(message) => Message(SUBMIT_ERROR_PREFIX + message)
    case Response(_, body) =>
      match body
      case None => Message("undefined")
      case Some(v) =>
        if v.Object? || v.Array? || v.Null? then JsonDump(v) else Message(Json.ToText(v))
  }

  datatype PostRequest = PostRequest(endpoint: string, body: FormData)

  datatype SubmitOutcome = SubmitOutcome(
    request: Option<PostRequest>,
    form: PostForm,
    navigateTo: Option<string>,
    alert: Option<Alert>)

  /** One submit; `reply` is what the post request settles with, if one is sent. */
  function HandleSubmit(st: Store, form: PostForm, reply: Reply<Json.Value>): (r: SubmitOutcome)
    ensures !HasTruthy(st, ACCESS_TOKEN) ==>
              r == SubmitOutcome(None, form, Some("/login"), Some(Message(NOT_LOGGED_IN)))
    ensures HasTruthy(st, ACCESS_TOKEN) ==>
              r.request == Some(PostRequest(Endpoint(form.postType), Fields(form)))
    ensures HasTruthy(st, ACCESS_TOKEN) && reply.Ok? ==>
              r.form == EMPTY_FORM && r.navigateTo == Some("/feed") && r.alert.None?
    ensures HasTruthy(st, ACCESS_TOKEN) && reply.Err? ==>
              r.form == form && r.navigateTo.None? && r.alert == Some(FailureAlert(reply.failure))
  {
    if !HasTruthy(st, ACCESS_TOKEN) then
      SubmitOutcome(None, form, Some("/login"), Some(Message(NOT_LOGGED_IN)))
    else
      var request := PostRequest(Endpoint(form.postType), Fields(form));
      match reply
      case Ok(_) => SubmitOutcome(Some(request), EMPTY_FORM, Some("/feed"), None)
      case Err(f) => SubmitOutcome(Some(request), form, None, Some(FailureAlert(f)))
  }

  /** After a successful post, an immediate resubmit would send an empty social post. */
  lemma ResubmitAfterSuccess(st: Store, form: PostForm, first: Reply<Json.Value>, second: Reply<Json.Value>)
    requires HasTruthy(st, ACCESS_TOKEN) && first.Ok?
    ensures HandleSubmit(st, HandleSubmit(st, form, first).form, second).request
            == Some(PostRequest(SOCIAL_POSTS_ENDPOINT, [("content", Text(""))]))
  {
  }
}

=== FILE: explore_page.dfy ===
/**
 * src/pages/ExplorePage.jsx: one combined fetch of projects and users, and
 * a case-insensitive search over both lists.
 */
module ExplorePage {
  import opened Wrappers
  import opened Strings
  import opened Seqs
  import opened Http

  /** The fields the search reads; either may be missing from a record. */
  datatype Project = Project(id: int, title: Option<string>, description: Option<string>)
  datatype User = User(id: int, username: Option<string>)

  /** `field?.toLowerCase().includes(term.toLowerCase())`. */
  function FieldMatches(field: Option<string>, term: string): (b: bool)
    ensures field.None? ==> !b
    ensures field.Some? ==> (b <==> exists i :: OccursAt(ToLower(field.value), ToLower(term), i))
  {
    field.Some? && Includes(ToLower(field.value), ToLower(term))
  }

  predicate ProjectMatches(p: Project, term: string)
  {
    FieldMatches(p.title, term) || FieldMatches(p.description, term)
  }

  predicate UserMatches(u: User, term: string)
  {
    FieldMatches(u.username, term)
  }

  function FilteredProjects(projects: seq<Project>, term: string): (r: seq<Project>)
    ensures IsSubsequence(r, projects)
    ensures forall p :: p in r <==> p in projects && ProjectMatches(p, term)
    ensures forall p :: multiset(r)[p] == if ProjectMatches(p, term) then multiset(projects)[p] else 0
  {
    FilterIsSubsequence(projects, p => ProjectMatches(p, term));
    FilterCounts(projects, p => ProjectMatches(p, term));
    Filter(projects, p => ProjectMatches(p, term))
  }

  function FilteredUsers(users: seq<User>, term: string): (r: seq<User>)
    ensures IsSubsequence(r, users)
    ensures forall u :: u in r <==> u in users && UserMatches(u, term)
    ensures forall u :: multiset(r)[u] == if UserMatches(u, term) then multiset(users)[u] else 0
  {
    FilterIsSubsequence(users, u => UserMatches(u, term));
    FilterCounts(users, u => UserMatches(u, term));
    Filter(users, u => UserMatches(u, term))
  }

  /** The record has at least one field the project search reads. */
  predicate HasSearchedText(p: Project)
  {
    p.title.Some? || p.description.Some?
  }

  predicate HasUsername(u: User)
  {
    u.username.Some?
  }

  /** With nothing typed, exactly the records that have the searched field(s) are listed. */
  lemma EmptyTermKeepsRecordsWithFields(projects: seq<Project>, users: seq<User>)
    ensures FilteredProjects(projects, "") == Filter(projects, HasSearchedText)
    ensures FilteredUsers(users, "") == Filter(users, HasUsername)
  {
    forall s: string
      ensures Includes(ToLower(s), ToLower(""))
    {
      IncludesEmpty(ToLower(s));
    }
    FilterCongruent(projects, p => ProjectMatches(p, ""), HasSearchedText);
    FilterCongruent(users, u => UserMatches(u, ""), HasUsername);
  }

  lemma LowerIdempotent(s: string)
    ensures ToLower(ToLower(s)) == ToLower(s)
  {
  }

  /** The case of the search term makes no difference. */
  lemma SearchIgnoresTermCase(projects: seq<Project>, users: seq<User>, term: string)
    ensures FilteredProjects(projects, ToLower(term)) == FilteredProjects(projects, term)
    ensures FilteredUsers(users, ToLower(term)) == FilteredUsers(users, term)
  {
    LowerIdempotent(term);
    FilterCongruent(projects, p => ProjectMatches(p, ToLower(term)), p => ProjectMatches(p, term));
    FilterCongruent(users, u => UserMatches(u, ToLower(term)), u => UserMatches(u, term));
  }

  /** Searching a list that grew at the end only adds results at the end. */
  lemma SearchDistributes(a: seq<Project>, b: seq<Project>, term: string)
    ensures FilteredProjects(a + b, term) == FilteredProjects(a, term) + FilteredProjects(b, term)
  {
    FilterAppend(a, b, p => ProjectMatches(p, term));
  }

  datatype ExploreState = ExploreState(
    projects: seq<Project>,
    users: seq<User>,
    loading: bool,
    error: Option<Failure>)

  const INITIAL: ExploreState := ExploreState([], [], true, None)

  /**
   * `fetchData` from start to settlement. `reply` is the `Promise.all` of
   * both lists; a `None` list stands for a falsy `data`.
   */
  function FetchData(s: ExploreState, reply: Reply<(Option<seq<Project>>, Option<seq<User>>)>)
    : (r: (ExploreState, Option<string>))
    ensures !r.0.loading
    ensures reply.Ok? ==>
              r.0.projects == reply.data.0.GetOr([]) && r.0.users == reply.data.1.GetOr([])
              && r.0.error.None?
    ensures reply.Err? ==>
              r.0.projects == s.projects && r.0.users == s.users && r.0.error == Some(reply.failure)
    ensures r.1.Some? <==> reply.Err? && Status(reply.failure) == Some(401)
    ensures r.1.Some? ==> r.1.value == "/login"
  {
    var started := s.(loading := true, error := None);
    match reply
    case Ok((projects, users)) =>
      (started.(projects := projects.GetOr([]), users := users.GetOr([]), loading := false), None)
    case Err(f) =>
      var nav := if Status(f) == Some(401) then Some("/login") else None;
      (started.(error := Some(f), loading := false), nav)
  }

  datatype View =
    | Skeleton
    | CriticalError
    | Content(showUsers: bool, users: seq<User>, projects: seq<Project>)

  /** What the page renders for a state and the current search term. */
  function Render(s: ExploreState, term: string): (v: View)
    ensures v == Skeleton <==> s.loading
    ensures v.CriticalError? <==> !s.loading && s.error.Some? && |s.projects| == 0 && |s.users| == 0
    ensures v.Content? ==>
              v.showUsers == (term != "")
              && v.users == FilteredUsers(s.users, term)
              && v.projects == FilteredProjects(s.projects, term)
  {
    if s.loading then Skeleton
    else if s.error.Some? && |s.projects| == 0 && |s.users| == 0 then CriticalError
    else Content(term != "", FilteredUsers(s.users, term), FilteredProjects(s.projects, term))
  }

  /** A first load that fails ends on the error screen. */
  lemma FailedFirstLoadShowsError(f: Failure, term: string)
    ensures Render(FetchData(INITIAL, Err(f)).0, term) == CriticalError
  {
  }

  /** A failed refresh keeps showing the lists loaded before it. */
  lemma FailedReloadKeepsContent(s: ExploreState, f: Failure, term: string)
    requires |s.projects| > 0 || |s.users| > 0
    ensures Render(FetchData(s, Err(f)).0, term).Content?
  {
  }
}

=== FILE: forms.dfy ===
/** Files picked in an `<input type="file">` and the `FormData` bodies built from them. */
module Forms {

  datatype File = File(name: string)

  datatype Part = Text(text: string) | Blob(file: File)

  /** A `FormData`: its `(name, value)` entries in the order they were appended. */
  type FormData = seq<(string, Part)>
}

=== FILE: home_page.dfy ===
/**
 * src/pages/HomePage.jsx: the feed, where a like bumps one post's counter
 * and each post has its own comment draft.
 */
module HomePage {
  import opened Wrappers
  import Strings
  import Json
  import opened Storage
  import opened Http
  import ApiClient

  /** A feed entry; `likes` is the only field the page changes. */
  datatype Post = Post(id: int, likes: int, title: string)

  /** `{ ...p, likes: p.likes + 1 }` on the matching entries, the rest as they were. */
  function Liked(posts: seq<Post>, postId: int): (r: seq<Post>)
    ensures |r| == |posts|
    ensures forall i :: 0 <= i < |posts| && posts[i].id == postId ==>
              r[i].likes == posts[i].likes + 1 && r[i].id == postId && r[i].title == posts[i].title
    ensures forall i :: 0 <= i < |posts| && posts[i].id != postId ==> r[i] == posts[i]
  {
    seq(|posts|, i requires 0 <= i < |posts| =>
      if posts[i].id == postId then posts[i].(likes := posts[i].likes + 1) else posts[i])
  }

  /** `handleLike`: the list after the like request settles. */
  function HandleLike(posts: seq<Post>, postId: int, reply: Reply<Json.Value>): (r: seq<Post>)
    ensures reply.Err? ==> r == posts
    ensures reply.Ok? ==> r == Liked(posts, postId)
  {
    if reply.Ok? then Liked(posts, postId) else posts
  }

  function TotalLikes(posts: seq<Post>): int
    decreases |posts|
  {
    if |posts| == 0 then 0 else posts[0].likes + TotalLikes(posts[1..])
  }

  /** How many entries carry the id (the list normally holds each post once). */
  function CountId(posts: seq<Post>, postId: int): nat
    decreases |posts|
  {
    if |posts| == 0 then 0 else (if posts[0].id == postId then 1 else 0) + CountId(posts[1..], postId)
  }

  /** A like adds exactly one to the total for every entry with that id, and nothing else. */
  lemma {:induction false} LikeRaisesTotalByMatches(posts: seq<Post>, postId: int)
    ensures TotalLikes(Liked(posts, postId)) == TotalLikes(posts) + CountId(posts, postId)
    decreases |posts|
  {
    if |posts| > 0 {
      assert Liked(posts, postId)[1..] == Liked(posts[1..], postId);
      LikeRaisesTotalByMatches(posts[1..], postId);
    }
  }

  /** Liking a post that is not in the list changes nothing. */
  lemma LikeUnknownIdIsIdentity(posts: seq<Post>, postId: int)
    requires forall i :: 0 <= i < |posts| ==> posts[i].id != postId
    ensures Liked(posts, postId) == posts
  {
  }

  /** `String(localStorage.getItem('token'))`: a missing entry gives "null". */
  function StoredToken(st: Store): (t: string)
    ensures TOKEN in st ==> t == st[TOKEN]
    ensures TOKEN !in st ==> t == "null"
  {
    GetItem(st, TOKEN).GetOr("null")
  }

  /** The request `handleLike` builds, with its own Authorization header. */
  function LikeRequest(st: Store, postId: int): (c: ApiClient.RequestConfig)
    ensures c.headers == map[ApiClient.AUTHORIZATION := ApiClient.SCHEME + StoredToken(st)]
  {
    ApiClient.RequestConfig("post", "/feed/" + Strings.IntToString(postId) + "/like/",
                            map[ApiClient.AUTHORIZATION := ApiClient.SCHEME + StoredToken(st)],
                            Some(Json.Object([])))
  }

  /**
   * Without a `token` entry the interceptor leaves the page's header alone,
   * so the request goes out as "Token null".
   */
  lemma LikeWithoutTokenSendsTokenNull(st: Store, postId: int)
    requires TOKEN !in st
    ensures ApiClient.AttachToken(st, LikeRequest(st, postId)).headers[ApiClient.AUTHORIZATION] == "Token null"
  {
  }

  /** Comment drafts by post id (`commentText`). */
  type Drafts = map<int, string>

  /** `commentText[post.id] || ''`, the text shown in a post's comment box. */
  function DraftText(drafts: Drafts, postId: int): (t: string)
    ensures postId in drafts ==> t == drafts[postId]
    ensures postId !in drafts ==> t == ""
  {
    if postId in drafts then drafts[postId] else ""
  }

  /** Typing in one comment box. */
  function EditDraft(drafts: Drafts, postId: int, text: string): (r: Drafts)
    ensures DraftText(r, postId) == text
    ensures r.Keys == drafts.Keys + {postId}
    ensures forall id :: id != postId ==> DraftText(r, id) == DraftText(drafts, id)
    ensures forall id :: id in drafts && id != postId ==> r[id] == drafts[id]
  {
    drafts[postId := text]
  }

  datatype CommentRequest = CommentRequest(postId: int, text: string)

  datatype CommentOutcome = CommentOutcome(
    drafts: Drafts,
    posts: seq<Post>,
    request: Option<CommentRequest>)

  /**
   * `handleComment`: `postReply` settles the comment request, `feedReply`
   * the feed reload that follows a successful one.
   */
  function HandleComment(drafts: Drafts, posts: seq<Post>, postId: int,
                         postReply: Reply<Json.Value>, feedReply: Reply<seq<Post>>): (r: CommentOutcome)
    ensures DraftText(drafts, postId) == "" ==> r == CommentOutcome(drafts, posts, None)
    ensures DraftText(drafts, postId) != "" ==>
              r.request == Some(CommentRequest(postId, drafts[postId]))
    ensures DraftText(drafts, postId) != "" && postReply.Ok? ==>
              && postId in r.drafts && r.drafts[postId] == ""
              && r.drafts.Keys == drafts.Keys
              && (forall id :: id in drafts && id != postId ==> r.drafts[id] == drafts[id])
              && r.posts == (if feedReply.Ok? then feedReply.data else posts)
    ensures DraftText(drafts, postId) != "" && postReply.Err? ==> r.drafts == drafts && r.posts == posts
  {
    if DraftText(drafts, postId) == "" then CommentOutcome(drafts, posts, None)
    else
      var request := Some(CommentRequest(postId, drafts[postId]));
      if postReply.Err? then CommentOutcome(drafts, posts, request)
      else
        var cleared := drafts[postId := ""];
        CommentOutcome(cleared, if feedReply.Ok? then feedReply.data else posts, request)
  }

  /** A sent comment empties its box, so pressing Post again sends nothing. */
  lemma CommentTwiceSendsOnce(drafts: Drafts, posts: seq<Post>, postId: int,
                              r1: Reply<Json.Value>, f1: Reply<seq<Post>>,
                              r2: Reply<Json.Value>, f2: Reply<seq<Post>>)
    requires r1.Ok?
    ensures var first := HandleComment(drafts, posts, postId, r1, f1);
            HandleComment(first.drafts, first.posts, postId, r2, f2).request.None?
  {
  }
}

=== FILE: http.dfy ===
/**
 * The outcome of one API call, handed to the page logic as a value instead
 * of being awaited: either the parsed response data or the error axios
 * rejects with.
 */
module Http {
  import opened Wrappers
  import Json

  datatype Failure =
    /** The server answered with a non-2xx status; `body` is `err.response.data`. */
    | Response(status: int, body: Option<Json.Value>)
    /** No response reached the page (network error, or an exception thrown in the handler). */
    | NoResponse(message: string)

  datatype Reply<+T> = Ok(data: T) | Err(failure: Failure)

  /** `err.response?.status`. */
  function Status(f: Failure): (r: Option<int>)
    ensures r.Some? <==> f.Response?
    ensures r.Some? ==> r.value == f.status
  {
    if f.Response? then Some(f.status) else None
  }

  /** `err?.response?.data`. */
  function Body(f: Failure): (r: Option<Json.Value>)
    ensures f.NoResponse? ==> r.None?
    ensures f.Response? ==> r == f.body
  {
    if f.Response? then f.body else None
  }
}

=== FILE: json.dfy ===
/**
 * Response bodies as the pages see them after axios has parsed them, with
 * JavaScript's truthiness, property access, `String(v)` conversion and
 * `Object.entries`. Numbers are integers only.
 */
module Json {
  import opened Wrappers
  import Strings

  datatype Value =
    | Null
    | Bool(b: bool)
    | Number(n: int)
    | Str(s: string)
    | Array(items: seq<Value>)
    | Object(entries: seq<(string, Value)>)

  /** What a JavaScript condition makes of the value. */
  function Truthy(v: Value): (b: bool)
    ensures !b <==> v == Null || v == Bool(false) || v == Number(0) || v == Str("")
  {
    match v
    case Null => false
    case Bool(b) => b
    case Number(n) => n != 0
    case Str(s) => s != ""
    case Array(_) => true
    case Object(_) => true
  }

  /** Truthiness of a value that may be `undefined`. */
  function TruthyOpt(v: Option<Value>): (b: bool)
    ensures v.None? ==> !b
    ensures v.Some? ==> (b <==> Truthy(v.value))
  {
    v.Some? && Truthy(v.value)
  }

  /** The value of the first entry named `key`. */
  function Lookup(entries: seq<(string, Value)>, key: string): (r: Option<Value>)
    ensures r.Some? ==> exists i :: 0 <= i < |entries| && entries[i] == (key, r.value)
    ensures r.None? ==> forall i :: 0 <= i < |entries| ==> entries[i].0 != key
    decreases |entries|
  {
    if |entries| == 0 then None
    else if entries[0].0 == key then Some(entries[0].1)
    else
      var r := Lookup(entries[1..], key);
      assert forall i :: 1 <= i < |entries| ==> entries[i] == entries[1..][i - 1];
      r
  }

  /** No two entries share a key, as in every object `JSON.parse` produces. */
  predicate UniqueKeys(entries: seq<(string, Value)>)
  {
    forall i, j :: 0 <= i < j < |entries| ==> entries[i].0 != entries[j].0
  }

  /** On an object without repeated keys, `Lookup` finds the one entry carrying the key. */
  lemma {:induction false} LookupUnique(entries: seq<(string, Value)>, i: nat)
    requires UniqueKeys(entries) && i < |entries|
    ensures Lookup(entries, entries[i].0) == Some(entries[i].1)
    decreases |entries|
  {
    if i > 0 {
      assert entries[0].0 != entries[i].0;
      assert UniqueKeys(entries[1..]) by {
        forall a, b | 0 <= a < b < |entries[1..]|
          ensures entries[1..][a].0 != entries[1..][b].0
        {
          assert entries[1..][a] == entries[a + 1] && entries[1..][b] == entries[b + 1];
        }
      }
      LookupUnique(entries[1..], i - 1);
      assert entries[1..][i - 1] == entries[i];
    }
  }

  /** Property access `v.key`; only objects carry named properties here. */
  function Get(v: Value, key: string): (r: Option<Value>)
    ensures !v.Object? ==> r.None?
    ensures v.Object? ==> r == Lookup(v.entries, key)
  {
    if v.Object? then Lookup(v.entries, key) else None
  }

  /** `String(v)`: arrays join their elements with commas, `null` elements giving "". */
  function ToText(v: Value): (t: string)
    ensures v.Null? ==> t == "null"
    ensures v.Bool? ==> t == (if v.b then "true" else "false")
    ensures v.Number? ==> t == Strings.IntToString(v.n)
    ensures v.Str? ==> t == v.s
    ensures v.Array? && |v.items| == 0 ==> t == ""
    ensures v.Array? && |v.items| == 1 ==> t == ItemText(v.items[0])
    ensures v.Object? ==> t == "[object Object]"
    decreases v, 1
  {
    match v
    case Null => "null"
    case Bool(b) => if b then "true" else "false"
    case Number(n) => Strings.IntToString(n)
    case Str(s) => s
    case Array(items) =>
      Strings.Join(seq(|items|, i requires 0 <= i < |items| => ItemText(items[i])), ",")
    case Object(_) => "[object Object]"
  }

  /** How `Array.prototype.join` renders one element. */
  function ItemText(v: Value): (t: string)
    ensures v.Null? ==> t == ""
    ensures !v.Null? ==> t == ToText(v)
    decreases v, 2
  {
    if v.Null? then "" else ToText(v)
  }

  /** A longer array renders as its first element, a comma, then the rest of the array. */
  lemma ToTextArrayCons(items: seq<Value>)
    requires |items| > 1
    ensures ToText(Array(items)) == ItemText(items[0]) + "," + ToText(Array(items[1..]))
  {
    var parts := seq(|items|, i requires 0 <= i < |items| => ItemText(items[i]));
    assert parts[1..] == seq(|items[1..]|, i requires 0 <= i < |items[1..]| => ItemText(items[1..][i]));
  }

  /** `items.join(sep)`. */
  function JoinItems(items: seq<Value>, sep: string): (t: string)
    ensures |items| == 0 ==> t == ""
    ensures |items| > 0 ==> Strings.StartsWith(t, ItemText(items[0]))
  {
    Strings.Join(seq(|items|, i requires 0 <= i < |items| => ItemText(items[i])), sep)
  }

  /**
   * `Object.entries(v || {})` for a value that may be `undefined`: an
   * object's own entries, the indexed elements of an array or string, and
   * nothing for anything else.
   */
  function Entries(v: Option<Value>): (es: seq<(string, Value)>)
    ensures v.None? ==> es == []
    ensures v.Some? && (v.value.Null? || v.value.Bool? || v.value.Number?) ==> es == []
    ensures v.Some? && v.value.Object? ==> es == v.value.entries
    ensures v.Some? && v.value.Array? ==>
              |es| == |v.value.items|
              && forall i :: 0 <= i < |es| ==> es[i] == (Strings.NatToString(i), v.value.items[i])
    ensures v.Some? && v.value.Str? ==>
              |es| == |v.value.s|
              && forall i :: 0 <= i < |es| ==> es[i] == (Strings.NatToString(i), Str([v.value.s[i]]))
  {
    match v
    case None => []
    case Some(Object(entries)) => entries
    case Some(Array(items)) =>
      seq(|items|, i requires 0 <= i < |items| => (Strings.NatToString(i), items[i]))
    case Some(Str(s)) =>
      seq(|s|, i requires 0 <= i < |s| => (Strings.NatToString(i), Str([s[i]])))
    case Some(_) => []
  }
}

=== FILE: login_page.dfy ===
/**
 * `handleSubmit` of src/pages/LoginPage.jsx: on success the two tokens of
 * the reply are stored and the app is told about the login; on failure the
 * error body is turned into one line of text.
 */
module LoginPage {
  import opened Wrappers
  import opened Strings
  import Json
  import opened Storage
  import opened Http

  const LOGIN_FAILED: string := "Login failed. Please check your credentials."
  const AFTER_LOGIN: string := "/explore"

  /** One `key: value` piece of the message; an array value is joined with spaces. */
  function EntryText(entry: (string, Json.Value)): (t: string)
    ensures t == entry.0 + ": " + (if entry.1.Array? then Json.JoinItems(entry.1.items, " ") else Json.ToText(entry.1))
  {
    entry.0 + ": " + (if entry.1.Array? then Json.JoinItems(entry.1.items, " ") else Json.ToText(entry.1))
  }

  function EntryTexts(es: seq<(string, Json.Value)>): (ts: seq<string>)
    ensures |ts| == |es|
    ensures forall i :: 0 <= i < |es| ==> ts[i] == EntryText(es[i])
  {
    seq(|es|, i requires 0 <= i < |es| => EntryText(es[i]))
  }

  /** The entries rendered in order and separated by single spaces. */
  function EntriesText(es: seq<(string, Json.Value)>): (t: string)
    ensures t == "" <==> |es| == 0
    ensures |es| > 0 ==> StartsWith(t, EntryText(es[0]))
    ensures |es| == 1 ==> t == EntryText(es[0])
  {
    var t := Join(EntryTexts(es), " ");
    assert |es| > 0 ==> |EntryText(es[0])| >= 2;
    t
  }

  /** Rendering a longer list puts one space between the first entry and the rest. */
  lemma {:induction false} EntriesTextCons(es: seq<(string, Json.Value)>)
    requires |es| > 1
    ensures EntriesText(es) == EntryText(es[0]) + " " + EntriesText(es[1..])
  {
    assert EntryTexts(es)[1..] == EntryTexts(es[1..]);
  }

  /** `data?.detail`. */
  function Detail(data: Option<Json.Value>): (d: Option<Json.Value>)
    ensures data.None? || !data.value.Object? ==> d.None?
    ensures data.Some? && data.value.Object? ==> d == Json.Lookup(data.value.entries, "detail")
  {
    if data.Some? then Json.Get(data.value, "detail") else None
  }

  /** The value the failure branch hands to `setError`. */
  function ErrorMessage(data: Option<Json.Value>): (msg: Json.Value)
    ensures data.Some? && data.value.Str? ==> msg == data.value
    ensures !(data.Some? && data.value.Str?) && Json.TruthyOpt(Detail(data)) ==>
              msg == Detail(data).value
    ensures !(data.Some? && data.value.Str?) && !Json.TruthyOpt(Detail(data)) ==>
              msg == if |Json.Entries(data)| > 0 then Json.Str(EntriesText(Json.Entries(data)))
                     else Json.Str(LOGIN_FAILED)
  {
    if data.Some? && data.value.Str? then data.value
    else if Json.TruthyOpt(Detail(data)) then Detail(data).value
    else
      var joined := EntriesText(Json.Entries(data));
      if joined != "" then Json.Str(joined) else Json.Str(LOGIN_FAILED)
  }

  /** The failure banner is hidden only when the server sent an empty string. */
  lemma ErrorMessageShown(data: Option<Json.Value>)
    ensures Json.Truthy(ErrorMessage(data)) <==> data != Some(Json.Str(""))
  {
  }

  /** A failure without a response body always gets the fixed fallback text. */
  lemma ErrorMessageWithoutBody()
    ensures ErrorMessage(None) == Json.Str(LOGIN_FAILED)
  {
  }

  /** `String(v)` as `setItem` applies it; a missing field is stored as "undefined". */
  function StoredText(v: Option<Json.Value>): (t: string)
    ensures v.None? ==> t == "undefined"
    ensures v.Some? ==> t == Json.ToText(v.value)
    ensures v.Some? && v.value.Str? ==> t == v.value.s
  {
    if v.Some? then Json.ToText(v.value) else "undefined"
  }

  /** The reply reached the storage writes: destructuring `null` throws before them. */
  function Succeeded(reply: Reply<Json.Value>): (b: bool)
    ensures b ==> reply.Ok?
    ensures reply.Ok? ==> (b <==> reply.data != Json.Null)
  {
    reply.Ok? && !reply.data.Null?
  }

  datatype Outcome = Outcome(
    store: Store,
    error: Json.Value,
    calledOnLogin: bool,
    navigateTo: Option<string>)

  /**
   * One submit. `hasOnLogin` says whether the page was given an `onLogin`
   * callback; the error shown before the submit plays no part, as the
   * handler clears it first.
   */
  function HandleSubmit(st: Store, reply: Reply<Json.Value>, hasOnLogin: bool): (r: Outcome)
    ensures Succeeded(reply) ==>
              && r.store.Keys == st.Keys + {ACCESS_TOKEN, REFRESH_TOKEN}
              && r.store[ACCESS_TOKEN] == StoredText(Json.Get(reply.data, "access"))
              && r.store[REFRESH_TOKEN] == StoredText(Json.Get(reply.data, "refresh"))
              && (forall k :: k in st && k != ACCESS_TOKEN && k != REFRESH_TOKEN ==> r.store[k] == st[k])
              && r.error == Json.Str("")
    ensures r.navigateTo.Some? <==> Succeeded(reply)
    ensures r.navigateTo.Some? ==> r.navigateTo.value == AFTER_LOGIN
    ensures r.calledOnLogin <==> Succeeded(reply) && hasOnLogin
    ensures !Succeeded(reply) ==> r.store == st
    ensures reply.Err? ==> r.error == ErrorMessage(Body(reply.failure))
    ensures reply.Ok? && reply.data.Null? ==> r.error == Json.Str(LOGIN_FAILED)
  {
    KeysDistinct();
    match reply
    case Ok(data) =>
      if data.Null? then
        Outcome(st, ErrorMessage(None), false, None)
      else
        var st1 := SetItem(st, ACCESS_TOKEN, StoredText(Json.Get(data, "access")));
        var st2 := SetItem(st1, REFRESH_TOKEN, StoredText(Json.Get(data, "refresh")));
        Outcome(st2, Json.Str(""), hasOnLogin, Some(AFTER_LOGIN))
    case Err(f) =>
      Outcome(st, ErrorMessage(Body(f)), false, None)
  }
}

=== FILE: media_config.dfy ===
/**
 * `getImageUrl` in src/api/config.js: turns whatever the backend stored as
 * an image path into a URL the browser can load.
 */
module MediaConfig {
  import opened Wrappers
  import opened Strings

  /** The backend's public address; media is served below it. */
  const MEDIA_URL: string := "https://doomscrollr.onrender.com"

  /** Shown when a record has no image. */
  const DEFAULT_IMAGE: string := "/default-image.png"

  /** `!imagePath`: the path is `null`/`undefined` or the empty string. */
  predicate Missing(path: Option<string>)
  {
    path.None? || path.value == ""
  }

  function ImageUrl(path: Option<string>): (url: string)
    ensures Missing(path) ==> url == DEFAULT_IMAGE
    ensures !Missing(path) && StartsWith(path.value, "http") ==> url == path.value
    ensures !Missing(path) && !StartsWith(path.value, "http") && StartsWith(path.value, "/") ==>
              url == MEDIA_URL + path.value
    ensures !Missing(path) && !StartsWith(path.value, "http") && !StartsWith(path.value, "/") ==>
              url == MEDIA_URL + "/media/" + path.value
  {
    if Missing(path) then DEFAULT_IMAGE
    else if StartsWith(path.value, "http") then path.value
    else if StartsWith(path.value, "/") then MEDIA_URL + path.value
    else MEDIA_URL + "/media/" + path.value
  }

  /** Every path the backend supplied survives as the tail of the URL. */
  lemma ImageUrlEndsWithPath(path: string)
    requires path != ""
    ensures EndsWith(ImageUrl(Some(path)), path)
  {
    var url := ImageUrl(Some(path));
    if StartsWith(path, "http") {
      EndsWithAppend("", path);
      assert "" + path == path;
    } else if StartsWith(path, "/") {
      EndsWithAppend(MEDIA_URL, path);
    } else {
      EndsWithAppend(MEDIA_URL + "/media/", path);
    }
  }

  /** A path that does not already start with "http" is placed under the backend's address. */
  lemma ImageUrlUnderMediaUrl(path: string)
    requires path != "" && !StartsWith(path, "http")
    ensures StartsWith(ImageUrl(Some(path)), MEDIA_URL)
  {
    assert StartsWith(MEDIA_URL, MEDIA_URL);
    if StartsWith(path, "/") {
      StartsWithAppend(MEDIA_URL, path, MEDIA_URL);
    } else {
      StartsWithAppend(MEDIA_URL, "/media/" + path, MEDIA_URL);
      assert MEDIA_URL + ("/media/" + path) == MEDIA_URL + "/media/" + path;
    }
  }

  /**
   * Feeding a produced URL back in changes nothing: every non-default
   * result starts with "http", because `MEDIA_URL` does.
   */
  lemma {:induction false} ImageUrlIdempotent(path: string)
    requires path != ""
    ensures ImageUrl(Some(ImageUrl(Some(path)))) == ImageUrl(Some(path))
  {
    if !StartsWith(path, "http") {
      ImageUrlUnderMediaUrl(path);
      var url := ImageUrl(Some(path));
      assert url[..|MEDIA_URL|] == MEDIA_URL;
      assert url[..4] == MEDIA_URL[..4];
      assert StartsWith(url, "http");
    }
  }

  /** The helper leaves a non-empty path as it is exactly when the path is already absolute. */
  lemma ImageUrlFixedIffAbsolute(path: string)
    requires path != ""
    ensures ImageUrl(Some(path)) == path <==> StartsWith(path, "http")
  {
    if !StartsWith(path, "http") {
      assert |ImageUrl(Some(path))| > |path|;
    }
  }

  /** The default image is itself a site-relative path, so a second pass moves it under the backend. */
  lemma DefaultImageNotFixedPoint()
    ensures ImageUrl(Some(ImageUrl(None))) == MEDIA_URL + DEFAULT_IMAGE
  {
    assert DEFAULT_IMAGE[..1] == "/";
    assert DEFAULT_IMAGE[0] != "http"[0];
    assert DEFAULT_IMAGE[..4] != "http";
  }
}

=== FILE: seqs.dfy ===
/** `Array.prototype.filter` and the order-preserving subsequence relation it produces. */
module Seqs {

  function Filter<T>(s: seq<T>, keep: T -> bool): (r: seq<T>)
    ensures |r| <= |s|
    ensures forall x :: x in r ==> x in s && keep(x)
    ensures forall x :: x in s && keep(x) ==> x in r
    decreases |s|
  {
    if |s| == 0 then []
    else
      var rest := Filter(s[1..], keep);
      assert forall x :: x in s && x != s[0] ==> x in s[1..];
      (if keep(s[0]) then [s[0]] else []) + rest
  }

  /** `filter` keeps every copy of an element that passes and none of one that fails. */
  lemma {:induction false} FilterCounts<T(!new)>(s: seq<T>, keep: T -> bool)
    ensures forall x :: multiset(Filter(s, keep))[x] == if keep(x) then multiset(s)[x] else 0
    decreases |s|
  {
    if |s| > 0 {
      FilterCounts(s[1..], keep);
      assert s == [s[0]] + s[1..];
      assert multiset(s) == multiset([s[0]]) + multiset(s[1..]);
    }
  }

  /** `a` is `b` with some elements left out and the rest in their original order. */
  ghost predicate IsSubsequence<T>(a: seq<T>, b: seq<T>)
    decreases |b|
  {
    if |a| == 0 then true
    else if |b| == 0 then false
    else if a[0] == b[0] then IsSubsequence(a[1..], b[1..])
    else IsSubsequence(a, b[1..])
  }

  lemma {:induction false} FilterIsSubsequence<T>(s: seq<T>, keep: T -> bool)
    ensures IsSubsequence(Filter(s, keep), s)
    decreases |s|
  {
    if |s| > 0 {
      var r := Filter(s, keep);
      var rest := Filter(s[1..], keep);
      FilterIsSubsequence(s[1..], keep);
      if keep(s[0]) {
        assert r == [s[0]] + rest;
        assert r[1..] == rest;
      } else {
        assert r == rest;
        if |r| > 0 {
          assert r[0] in rest;
          assert r[0] != s[0];
        }
      }
    }
  }

  /** Filtering a concatenation filters each part. */
  lemma {:induction false} FilterAppend<T>(a: seq<T>, b: seq<T>, keep: T -> bool)
    ensures Filter(a + b, keep) == Filter(a, keep) + Filter(b, keep)
    decreases |a|
  {
    if |a| > 0 {
      assert (a + b)[1..] == a[1..] + b;
      FilterAppend(a[1..], b, keep);
    } else {
      assert a + b == b;
    }
  }

  /** Two tests that agree on every element select the same elements. */
  lemma {:induction false} FilterCongruent<T>(s: seq<T>, keep1: T -> bool, keep2: T -> bool)
    requires forall x :: x in s ==> keep1(x) == keep2(x)
    ensures Filter(s, keep1) == Filter(s, keep2)
    decreases |s|
  {
    if |s| > 0 {
      assert forall x :: x in s[1..] ==> x in s;
      FilterCongruent(s[1..], keep1, keep2);
    }
  }
}

=== FILE: session.dfy ===
/**
 * How the pages' storage writes meet the request interceptor. Login writes
 * `accessToken` and `refreshToken`, logout removes them, the post form
 * checks `accessToken`, but the interceptor only ever reads `token`.
 */
module Session {
  import opened Wrappers
  import Json
  import opened Storage
  import opened Http
  import ApiClient
  import LoginPage
  import AccountPage
  import CreateProjectPage

  /**
   * Logging in does not change a single outgoing request: the interceptor
   * behaves afterwards exactly as it did before.
   */
  lemma LoginDoesNotChangeRequests(st: Store, reply: Reply<Json.Value>, hasOnLogin: bool,
                                   config: ApiClient.RequestConfig)
    ensures ApiClient.AttachToken(LoginPage.HandleSubmit(st, reply, hasOnLogin).store, config)
            == ApiClient.AttachToken(st, config)
  {
    KeysDistinct();
    var after := LoginPage.HandleSubmit(st, reply, hasOnLogin).store;
    assert GetItem(after, TOKEN) == GetItem(st, TOKEN);
    ApiClient.AttachTokenReadsOnlyToken(after, st, config);
  }

  /** In a fresh browser, a successful login still sends every request without credentials. */
  lemma FreshLoginSendsNoAuthorization(reply: Reply<Json.Value>, hasOnLogin: bool,
                                       config: ApiClient.RequestConfig)
    requires LoginPage.Succeeded(reply)
    ensures var st := LoginPage.HandleSubmit(map[], reply, hasOnLogin).store;
            ApiClient.AttachToken(st, config) == config
  {
    LoginDoesNotChangeRequests(map[], reply, hasOnLogin, config);
  }

  /** Logging out removes exactly what logging in wrote. */
  lemma LogoutUndoesLogin(st: Store, reply: Reply<Json.Value>, hasOnLogin: bool)
    requires LoginPage.Succeeded(reply)
    ensures AccountPage.HandleLogout(LoginPage.HandleSubmit(st, reply, hasOnLogin).store).store
            == AccountPage.HandleLogout(st).store
  {
  }

  /** Logging out does not change a single outgoing request either: `token` survives it. */
  lemma LogoutDoesNotChangeRequests(st: Store, config: ApiClient.RequestConfig)
    ensures ApiClient.AttachToken(AccountPage.HandleLogout(st).store, config)
            == ApiClient.AttachToken(st, config)
  {
    var after := AccountPage.HandleLogout(st).store;
    assert GetItem(after, TOKEN) == GetItem(st, TOKEN);
    ApiClient.AttachTokenReadsOnlyToken(after, st, config);
  }

  /** After logout the post form refuses to send and goes to the login page. */
  lemma PostingAfterLogoutIsRefused(st: Store, form: CreateProjectPage.PostForm, reply: Reply<Json.Value>)
    ensures var r := CreateProjectPage.HandleSubmit(AccountPage.HandleLogout(st).store, form, reply);
            r.request.None? && r.navigateTo == Some("/login")
  {
  }

  /** After a login whose reply carried a non-empty access token, the post form sends its request. */
  lemma PostingAfterLoginIsSent(st: Store, reply: Reply<Json.Value>, hasOnLogin: bool,
                                form: CreateProjectPage.PostForm, postReply: Reply<Json.Value>)
    requires LoginPage.Succeeded(reply)
    requires LoginPage.StoredText(Json.Get(reply.data, "access")) != ""
    ensures CreateProjectPage.HandleSubmit(LoginPage.HandleSubmit(st, reply, hasOnLogin).store, form, postReply)
              .request.Some?
  {
  }
}

=== FILE: storage.dfy ===
/**
 * The browser's `localStorage` as a map from key to string, with the keys
 * the pages use spelled out once.
 */
module Storage {
  import opened Wrappers

  type Store = map<string, string>

  /** Written by the login page, removed by logout, read by the post form. */
  const ACCESS_TOKEN: string := "accessToken"
  /** Written by the login page, removed by logout. */
  const REFRESH_TOKEN: string := "refreshToken"
  /** Read by the request interceptor and the feed's like/comment calls. */
  const TOKEN: string := "token"
  /** Read by the chat room to recognise the reader's own messages. */
  const USERNAME: string := "username"
  const USER: string := "user"

  lemma KeysDistinct()
    ensures ACCESS_TOKEN != TOKEN && REFRESH_TOKEN != TOKEN && ACCESS_TOKEN != REFRESH_TOKEN
  {
    assert ACCESS_TOKEN[0] != TOKEN[0];
    assert REFRESH_TOKEN[0] != TOKEN[0];
    assert ACCESS_TOKEN[0] != REFRESH_TOKEN[0];
  }

  /** `getItem`: `None` stands for the `null` an absent key yields. */
  function GetItem(st: Store, key: string): (r: Option<string>)
    ensures r.Some? <==> key in st
    ensures r.Some? ==> r.value == st[key]
  {
    if key in st then Some(st[key]) else None
  }

  /** `if (localStorage.getItem(key))`: present and not the empty string. */
  function HasTruthy(st: Store, key: string): (b: bool)
    ensures b <==> GetItem(st, key).Some? && GetItem(st, key).value != ""
  {
    key in st && st[key] != ""
  }

  function SetItem(st: Store, key: string, value: string): (r: Store)
    ensures r.Keys == st.Keys + {key}
    ensures r[key] == value
    ensures forall k :: k in st && k != key ==> r[k] == st[k]
  {
    st[key := value]
  }

  function RemoveItem(st: Store, key: string): (r: Store)
    ensures r.Keys == st.Keys - {key}
    ensures forall k :: k in r ==> r[k] == st[k]
  {
    st - {key}
  }
}

=== FILE: strings.dfy ===
/**
 * The few JavaScript string operations the pages rely on: `startsWith`,
 * `endsWith`, `includes`, `toLowerCase` (ASCII letters only), `trim`,
 * `Array.prototype.join` and the decimal rendering of integers.
 */
module Strings {

  predicate StartsWith(s: string, prefix: string)
  {
    |prefix| <= |s| && s[..|prefix|] == prefix
  }

  predicate EndsWith(s: string, suffix: string)
  {
    |suffix| <= |s| && s[|s| - |suffix|..] == suffix
  }

  lemma StartsWithAppend(a: string, b: string, prefix: string)
    requires StartsWith(a, prefix)
    ensures StartsWith(a + b, prefix)
  {
    assert (a + b)[..|prefix|] == a[..|prefix|];
  }

  lemma EndsWithAppend(a: string, b: string)
    ensures EndsWith(a + b, b)
  {
    assert (a + b)[|a + b| - |b|..] == b;
  }

  /** `needle` occurs in `hay` starting at index `i`. */
  ghost predicate OccursAt(hay: string, needle: string, i: int)
  {
    0 <= i && i + |needle| <= |hay| && hay[i..i + |needle|] == needle
  }

  lemma OccursAtShift(hay: string, needle: string, i: int)
    requires |hay| > 0 && i >= 1
    ensures OccursAt(hay, needle, i) <==> OccursAt(hay[1..], needle, i - 1)
  {
    if i + |needle| <= |hay| {
      assert hay[1..][i - 1..i - 1 + |needle|] == hay[i..i + |needle|];
    }
  }

  /** `String.prototype.includes`: whether `needle` occurs anywhere in `hay`. */
  function Includes(hay: string, needle: string): (b: bool)
    ensures b <==> exists i :: OccursAt(hay, needle, i)
    decreases |hay|
  {
    if |hay| < |needle| then
      assert forall i :: !OccursAt(hay, needle, i);
      false
    else if hay[..|needle|] == needle then
      assert OccursAt(hay, needle, 0);
      true
    else
      var rest := Includes(hay[1..], needle);
      assert rest ==> exists i :: OccursAt(hay, needle, i) by {
        if rest {
          var j :| OccursAt(hay[1..], needle, j);
          OccursAtShift(hay, needle, j + 1);
        }
      }
      assert (exists i :: OccursAt(hay, needle, i)) ==> rest by {
        if i :| OccursAt(hay, needle, i) {
          assert i != 0;
          OccursAtShift(hay, needle, i);
        }
      }
      rest
  }

  /** The empty string occurs in every string. */
  lemma IncludesEmpty(hay: string)
    ensures Includes(hay, "")
  {
    assert OccursAt(hay, "", 0);
  }

  function LowerChar(c: char): char
  {
    if 'A' <= c <= 'Z' then (c as int + 32) as char else c
  }

  /** `String.prototype.toLowerCase`, restricted to the ASCII letters. */
  function ToLower(s: string): (r: string)
    ensures |r| == |s|
    ensures forall i :: 0 <= i < |s| ==> r[i] == LowerChar(s[i])
    ensures forall i :: 0 <= i < |r| ==> !('A' <= r[i] <= 'Z')
  {
    seq(|s|, i requires 0 <= i < |s| => LowerChar(s[i]))
  }

  /**
   * The characters `String.prototype.trim` removes: the ECMAScript
   * WhiteSpace and LineTerminator code points.
   */
  predicate IsSpace(c: char)
  {
    || c == '\t' || c == '\n' || c == '\U{B}' || c == '\U{C}' || c == '\r'
    || c == ' ' || c == '\U{A0}' || c == '\U{1680}'
    || ('\U{2000}' <= c <= '\U{200A}')
    || c == '\U{2028}' || c == '\U{2029}' || c == '\U{202F}' || c == '\U{205F}'
    || c == '\U{3000}' || c == '\U{FEFF}'
  }

  ghost predicate AllSpace(s: string)
  {
    forall i :: 0 <= i < |s| ==> IsSpace(s[i])
  }

  function TrimStart(s: string): (r: string)
    ensures |r| <= |s| && r == s[|s| - |r|..]
    ensures AllSpace(s[..|s| - |r|])
    ensures r == [] || !IsSpace(r[0])
    decreases |s|
  {
    if |s| > 0 && IsSpace(s[0]) then
      var r := TrimStart(s[1..]);
      assert AllSpace(s[..|s| - |r|]) by {
        forall i | 0 <= i < |s| - |r|
          ensures IsSpace(s[i])
        {
          if i > 0 {
            assert s[1..][..|s| - 1 - |r|][i - 1] == s[i];
          }
        }
      }
      r
    else s
  }

  function TrimEnd(s: string): (r: string)
    ensures |r| <= |s| && r == s[..|r|]
    ensures AllSpace(s[|r|..])
    ensures r == [] || !IsSpace(r[|r| - 1])
    decreases |s|
  {
    if |s| > 0 && IsSpace(s[|s| - 1]) then
      var r := TrimEnd(s[..|s| - 1]);
      assert AllSpace(s[|r|..]) by {
        forall i | |r| <= i < |s|
          ensures IsSpace(s[i])
        {
          if i < |s| - 1 {
            assert s[..|s| - 1][|r|..][i - |r|] == s[i];
          }
        }
      }
      r
    else s
  }

  /** `r` is `s` with the white space `s[..a]` before it and `s[a + |r|..]` after it removed. */
  ghost predicate TrimmedAt(s: string, r: string, a: int)
  {
    0 <= a <= |s| - |r| && r == s[a..a + |r|] && AllSpace(s[..a]) && AllSpace(s[a + |r|..])
  }

  lemma TrimParts(s: string, t: string, r: string)
    requires |t| <= |s| && t == s[|s| - |t|..] && AllSpace(s[..|s| - |t|])
    requires |r| <= |t| && r == t[..|r|] && AllSpace(t[|r|..])
    ensures TrimmedAt(s, r, |s| - |t|)
  {
    var a := |s| - |t|;
    assert s[a + |r|..] == t[|r|..];
  }

  lemma PrefixKeepsHead(t: string, r: string)
    requires |r| <= |t| && r == t[..|r|]
    ensures r != [] ==> r[0] == t[0]
  {
  }

  /**
   * `String.prototype.trim`: the longest infix of `s` that neither starts
   * nor ends with white space, everything around it being white space.
   */
  function Trim(s: string): (r: string)
    ensures exists a :: TrimmedAt(s, r, a)
    ensures r == [] || (!IsSpace(r[0]) && !IsSpace(r[|r| - 1]))
  {
    var t := TrimStart(s);
    var r := TrimEnd(t);
    TrimParts(s, t, r);
    PrefixKeepsHead(t, r);
    r
  }

  /** A string trims to nothing exactly when it is all white space. */
  lemma TrimEmptyIffAllSpace(s: string)
    ensures Trim(s) == "" <==> AllSpace(s)
  {
    var r := Trim(s);
    if r == "" {
      var a :| TrimmedAt(s, r, a);
      forall i | 0 <= i < |s|
        ensures IsSpace(s[i])
      {
        if i < a { assert s[..a][i] == s[i]; } else { assert s[a..][i - a] == s[i]; }
      }
    } else {
      var a :| TrimmedAt(s, r, a);
      assert s[a] == r[0];
    }
  }

  /** `Array.prototype.join`: the parts in order, `sep` between neighbours. */
  function Join(parts: seq<string>, sep: string): (r: string)
    ensures |parts| == 0 ==> r == ""
    ensures |parts| > 0 ==> StartsWith(r, parts[0])
    ensures |parts| == 1 ==> r == parts[0]
    ensures |parts| > 1 ==> r == parts[0] + sep + Join(parts[1..], sep)
    decreases |parts|
  {
    if |parts| == 0 then ""
    else if |parts| == 1 then parts[0]
    else
      var r := parts[0] + sep + Join(parts[1..], sep);
      StartsWithAppend(parts[0], sep + Join(parts[1..], sep), parts[0]);
      assert parts[0] + (sep + Join(parts[1..], sep)) == r;
      r
  }

  function DigitChar(d: nat): char
    requires d < 10
  {
    "0123456789"[d]
  }

  /** The number a string of decimal digits denotes, most significant first. */
  function NumeralValue(s: string): nat
    requires forall i :: 0 <= i < |s| ==> '0' <= s[i] <= '9'
    decreases |s|
  {
    if |s| == 0 then 0
    else NumeralValue(s[..|s| - 1]) * 10 + (s[|s| - 1] as int - '0' as int)
  }

  /** The decimal numeral of `n`, without leading zeros. */
  function NatToString(n: nat): (r: string)
    ensures |r| > 0
    ensures forall i :: 0 <= i < |r| ==> '0' <= r[i] <= '9'
    ensures |r| > 1 ==> r[0] != '0'
    ensures NumeralValue(r) == n
    decreases n
  {
    if n < 10 then [DigitChar(n)]
    else
      var r := NatToString(n / 10) + [DigitChar(n % 10)];
      assert r[..|r| - 1] == NatToString(n / 10);
      r
  }

  /** The decimal numeral of `n`, with a leading `-` when negative. */
  function IntToString(n: int): (r: string)
    ensures |r| > 0
    ensures r[0] == '-' <==> n < 0
    ensures n >= 0 ==> (forall i :: 0 <= i < |r| ==> '0' <= r[i] <= '9') && NumeralValue(r) == n
    ensures n < 0 ==> (forall i :: 0 <= i < |r| - 1 ==> '0' <= r[1..][i] <= '9') && NumeralValue(r[1..]) == -n
  {
    if n < 0 then "-" + NatToString(-n) else NatToString(n)
  }
}

=== FILE: user_profile_page.dfy ===
/**
 * src/pages/UserProfilePage.jsx: a profile with its posts and projects,
 * fetched in two stages, and an optimistic follow button.
 */
module UserProfilePage {
  import opened Wrappers
  import Json
  import opened Http

  // ---------------------------------------------------------------------
  // Follow button
  // ---------------------------------------------------------------------

  datatype FollowState = FollowState(isFollowing: bool, followLoading: bool)

  /** The follow endpoints sit below the user's own endpoint. */
  function FollowEndpoint(userId: string, following: bool): (url: string)
    ensures url == UserEndpoint(userId) + (if following then "unfollow/" else "follow/")
  {
    "/users/" + userId + "/" + (if following then "unfollow" else "follow") + "/"
  }

  /** The alert names the action the click attempted, not the optimistic state. */
  function FollowFailedMessage(wasFollowing: bool): (m: string)
    ensures wasFollowing ==> m == "Failed to unfollow user. Please try again."
    ensures !wasFollowing ==> m == "Failed to follow user. Please try again."
  {
    "Failed to " + (if wasFollowing then "unfollow" else "follow") + " user. Please try again."
  }

  datatype Toggle = Ignored | Started(pending: FollowState, endpoint: string)

  /** The synchronous half of `handleFollowToggle`: guard, endpoint, optimistic flip. */
  function StartToggle(s: FollowState, userId: string): (t: Toggle)
    ensures t.Ignored? <==> s.followLoading
    ensures t.Started? ==> t.pending == FollowState(!s.isFollowing, true)
    ensures t.Started? ==> t.endpoint == FollowEndpoint(userId, s.isFollowing)
  {
    if s.followLoading then Ignored
    else Started(FollowState(!s.isFollowing, true), FollowEndpoint(userId, s.isFollowing))
  }

  /**
   * The half that runs once the request settles, on the state at that
   * moment; `wasFollowing` is the value the click saw, used in the alert.
   */
  function SettleToggle(current: FollowState, wasFollowing: bool, reply: Reply<Json.Value>)
    : (r: (FollowState, Option<string>))
    ensures !r.0.followLoading
    ensures reply.Ok? ==> r.0.isFollowing == current.isFollowing && r.1.None?
    ensures reply.Err? ==> r.0.isFollowing == !current.isFollowing && r.1 == Some(FollowFailedMessage(wasFollowing))
  {
    if reply.Ok? then (current.(followLoading := false), None)
    else (FollowState(!current.isFollowing, false), Some(FollowFailedMessage(wasFollowing)))
  }

  datatype ToggleOutcome = ToggleOutcome(state: FollowState, endpoint: Option<string>, alert: Option<string>)

  /** One click, with nothing else changing the state before the request settles. */
  function HandleFollowToggle(s: FollowState, userId: string, reply: Reply<Json.Value>): (r: ToggleOutcome)
    ensures s.followLoading ==> r == ToggleOutcome(s, None, None)
    ensures !s.followLoading ==>
              r.endpoint == Some(FollowEndpoint(userId, s.isFollowing)) && !r.state.followLoading
    ensures !s.followLoading && reply.Ok? ==> r.state.isFollowing == !s.isFollowing && r.alert.None?
    ensures !s.followLoading && reply.Err? ==>
              r.state.isFollowing == s.isFollowing && r.alert == Some(FollowFailedMessage(s.isFollowing))
  {
    match StartToggle(s, userId)
    case Ignored => ToggleOutcome(s, None, None)
    case Started(pending, endpoint) =>
      var settled := SettleToggle(pending, s.isFollowing, reply);
      ToggleOutcome(settled.0, Some(endpoint), settled.1)
  }

  /** Two successful clicks come back to the starting state, the second one undoing the first. */
  lemma ToggleTwiceRestores(s: FollowState, userId: string, r1: Reply<Json.Value>, r2: Reply<Json.Value>)
    requires !s.followLoading && r1.Ok? && r2.Ok?
    ensures var first := HandleFollowToggle(s, userId, r1);
            var second := HandleFollowToggle(first.state, userId, r2);
            second.state == s
            && second.endpoint == Some(FollowEndpoint(userId, !s.isFollowing))
  {
  }

  // ---------------------------------------------------------------------
  // Loading the profile
  // ---------------------------------------------------------------------

  datatype ProfileState = ProfileState(
    user: Json.Value,
    posts: seq<Json.Value>,
    projects: seq<Json.Value>,
    loading: bool,
    userError: Option<Failure>,
    postsError: Option<Failure>,
    projectsError: Option<Failure>)

  const INITIAL: ProfileState := ProfileState(Json.Null, [], [], true, None, None, None)

  function UserEndpoint(userId: string): string { "/users/" + userId + "/" }
  function PostsEndpoint(userId: string): string { "/social-posts/?author=" + userId }
  function ProjectsEndpoint(userId: string): string { "/projects/?owner=" + userId }

  /** `fetchUser`: the state after it settles and the value it returns (`null` on failure). */
  function FetchUser(s: ProfileState, reply: Reply<Json.Value>): (r: (ProfileState, Json.Value))
    ensures reply.Ok? ==> r.0.user == reply.data && r.0.userError.None? && r.1 == reply.data
    ensures reply.Err? ==> r.0.user == Json.Null && r.0.userError == Some(reply.failure) && r.1 == Json.Null
    ensures r.0.posts == s.posts && r.0.projects == s.projects && r.0.loading == s.loading
    ensures r.0.postsError == s.postsError && r.0.projectsError == s.projectsError
  {
    match reply
    case Ok(data) => (s.(user := data, userError := None), data)
    case Err(f) => (s.(user := Json.Null, userError := Some(f)), Json.Null)
  }

  /**
   * `fetchPosts` / `fetchProjects` once settled: a reply replaces the list
   * and clears its error, a failure empties the list and records the error.
   * The `retry` flag only decides whether the old error stays visible while
   * the request is in flight, so it does not appear here.
   */
  function SettleList(reply: Reply<seq<Json.Value>>): (r: (seq<Json.Value>, Option<Failure>))
    ensures reply.Ok? ==> r == (reply.data, None)
    ensures reply.Err? ==> r == ([], Some(reply.failure))
  {
    match reply
    case Ok(items) => (items, None)
    case Err(f) => ([], Some(f))
  }

  /** The error shown while a list request is in flight. */
  function ListErrorInFlight(previous: Option<Failure>, retry: bool): (e: Option<Failure>)
    ensures !retry ==> e.None?
    ensures retry ==> e == previous
  {
    if retry then previous else None
  }

  datatype FetchAllOutcome = FetchAllOutcome(state: ProfileState, requests: seq<string>)

  /** `fetchAllData`: the user first, then posts and projects only if a user came back. */
  function FetchAllData(s: ProfileState, userId: string, userReply: Reply<Json.Value>,
                        postsReply: Reply<seq<Json.Value>>, projectsReply: Reply<seq<Json.Value>>)
    : (r: FetchAllOutcome)
    ensures !r.state.loading
    ensures |r.requests| > 0 && r.requests[0] == UserEndpoint(userId)
    ensures |r.requests| == 3 <==> userReply.Ok? && Json.Truthy(userReply.data)
    ensures |r.requests| == 3 ==> r.requests[1..] == [PostsEndpoint(userId), ProjectsEndpoint(userId)]
    ensures |r.requests| != 3 ==>
              |r.requests| == 1 && r.state.posts == s.posts && r.state.projects == s.projects
              && r.state.postsError == s.postsError && r.state.projectsError == s.projectsError
    ensures |r.requests| == 3 ==>
              (r.state.posts, r.state.postsError) == SettleList(postsReply)
              && (r.state.projects, r.state.projectsError) == SettleList(projectsReply)
    ensures r.state.userError == (if userReply.Err? then Some(userReply.failure) else None)
    ensures r.state.user == (if userReply.Ok? then userReply.data else Json.Null)
  {
    var (afterUser, user) := FetchUser(s.(loading := true), userReply);
    if Json.Truthy(user) then
      var (posts, postsError) := SettleList(postsReply);
      var (projects, projectsError) := SettleList(projectsReply);
      FetchAllOutcome(
        afterUser.(posts := posts, postsError := postsError,
                   projects := projects, projectsError := projectsError, loading := false),
        [UserEndpoint(userId), PostsEndpoint(userId), ProjectsEndpoint(userId)])
    else
      FetchAllOutcome(afterUser.(loading := false), [UserEndpoint(userId)])
  }

  /** A failed posts or projects request leaves that tab empty with its error set. */
  lemma FailedListIsEmptyWithError(s: ProfileState, userId: string, user: Json.Value,
                                   postsReply: Reply<seq<Json.Value>>, projectsReply: Reply<seq<Json.Value>>)
    requires Json.Truthy(user) && postsReply.Err?
    ensures var r := FetchAllData(s, userId, Ok(user), postsReply, projectsReply).state;
            r.posts == [] && r.postsError == Some(postsReply.failure)
  {
  }

  // ---------------------------------------------------------------------
  // Rendering
  // ---------------------------------------------------------------------

  datatype Fallback = Fallback(message: string, retryButton: bool)

  /** `DataListFallback`: the empty-tab panel. */
  function DataListFallback(kind: string, hasError: bool): (f: Fallback)
    ensures f.retryButton <==> hasError
    ensures hasError ==> f.message == "Failed to load " + kind + ". Please try again."
    ensures !hasError ==> f.message == "This user hasn't created any " + kind + " yet."
  {
    if hasError then Fallback("Failed to load " + kind + ". Please try again.", true)
    else Fallback("This user hasn't created any " + kind + " yet.", false)
  }

  datatype TabBody = ShowFallback(fallback: Fallback) | ShowItems(items: seq<Json.Value>)

  /** One tab: the panel when the list failed or is empty, the items otherwise. */
  function TabContent(kind: string, items: seq<Json.Value>, error: Option<Failure>): (b: TabBody)
    ensures b.ShowFallback? <==> error.Some? || |items| == 0
    ensures b.ShowFallback? ==> b.fallback == DataListFallback(kind, error.Some?)
    ensures b.ShowItems? ==> b.items == items
  {
    if error.Some? || |items| == 0 then ShowFallback(DataListFallback(kind, error.Some?))
    else ShowItems(items)
  }

  /**
   * A tab rendered from its settled request offers the retry button exactly
   * when the request failed, and lists items exactly when a non-empty list came back.
   */
  lemma SettledTabMatchesReply(kind: string, reply: Reply<seq<Json.Value>>)
    ensures var p := SettleList(reply);
            var b := TabContent(kind, p.0, p.1);
            && (b.ShowFallback? && b.fallback.retryButton <==> reply.Err?)
            && (b.ShowFallback? && reply.Err? ==> b.fallback.message == "Failed to load " + kind + ". Please try again.")
            && (b.ShowItems? <==> reply.Ok? && |reply.data| > 0)
  {
  }

  datatype ProfileView = Skeleton | Unavailable(heading: string) | Main

  /** The page-level choice: skeleton, the not-found panel, or the profile itself. */
  function Render(s: ProfileState): (v: ProfileView)
    ensures v == Skeleton <==> s.loading
    ensures v.Unavailable? <==> !s.loading && (s.userError.Some? || !Json.Truthy(s.user))
    ensures v.Unavailable? ==>
              v.heading == (if s.userError.Some? && Status(s.userError.value) == Some(404)
                            then "User Not Found" else "Critical Error")
  {
    if s.loading then Skeleton
    else if s.userError.Some? || !Json.Truthy(s.user) then
      Unavailable(if s.userError.Some? && Status(s.userError.value) == Some(404)
                  then "User Not Found" else "Critical Error")
    else Main
  }

  /** After a load whose user request failed, the page shows the unavailable panel. */
  lemma FailedUserShowsUnavailable(s: ProfileState, userId: string, f: Failure,
                                   postsReply: Reply<seq<Json.Value>>, projectsReply: Reply<seq<Json.Value>>)
    ensures Render(FetchAllData(s, userId, Err(f), postsReply, projectsReply).state).Unavailable?
  {
  }
}

=== FILE: wrappers.dfy ===
/** The optional value used wherever the program deals with `null` or `undefined`. */
module Wrappers {

  datatype Option<+T> = None | Some(value: T) {

    /** Returns the wrapped value, or `default` when there is none. */
    function GetOr(default: T): T {
      match this
      case Some(v) => v
      case None => default
    }
  }
}
